=== FILE: README.md ===
# asterisk-kafka, modelled in Dafny

This project models the decision logic of four Asterisk modules that send
telephony events to Apache Kafka through librdkafka:

- `res_kafka` is the connection manager. It reads `res_kafka.conf`, builds one
  producer, and offers `ast_kafka_produce(topic, text)` to the other modules. It
  also runs a poll task on a host scheduler and adds two CLI commands,
  `kafka produce` and `kafka stats`.
- `cdr_kafka` is a CDR (call detail record) backend with its own producer. It
  reads `cdr_kafka.conf` and suspends or unsuspends itself from the `enabled`
  key. It turns each record into an 18-member JSON document.
- `cel_kafka` is a CEL (channel event logging) backend. It reads
  `cel_kafka.conf`, turns each event into a 21-member JSON document, and sends
  it through `ast_kafka_produce`.
- `app_kafka` is the dialplan application `KafkaProduce(<topic>,<message>)`.

The style is functional. Each module's globals form an immutable state record.
An entry point that changes globals or calls the host returns what it
changes: the new state, a return code, and a trace of the library and host
calls it makes (`Effects.Event`), in order. The adapters that only forward a
message (`CelKafka.Put`, `AppKafka.Exec`, `ResKafka.HandleCliProduce`) return
the produce call they make, if any; `ResKafka.ProduceCall` turns that call
into the connection manager's trace. Every answer from outside the model is a
parameter:

- the configuration loader's result (`AstConfig.LoadResult`);
- `ast_true`;
- whether librdkafka accepts a property, creates a producer or enqueues a
  message;
- the scheduler's three answers;
- the output-queue length at shutdown;
- whether the CDR or CEL core accepts a registration;
- whether the JSON object could be created.

All three configuration readers share one loop shape: walk the categories,
keep only those named "general" under `strcasecmp`, and apply each variable in
turn. `AstConfig.FoldCategories` is that loop. `AstConfig.LastValue` is the
reference reading: the value of the last matching key in the general sections.
The lemmas connect the two.

Files:

- `wrappers.dfy`: `Option`.
- `strings.dfy`: C strings as character sequences.
- `ast_config.dfy`: load results, case-insensitive keys, the fold and its
  reference.
- `json.dfy`: documents as members in insertion order.
- `effects.dfy`: trace events.
- `ast_module.dfy`: what `load_module` reports to the host's module loader.
- `kafka_connect.dfy`: the `kafka_connect` step chain, shared by two modules.
- `res_kafka.dfy`, `cdr_kafka.dfy`, `cel_kafka.dfy`, `app_kafka.dfy`: one module
  per source file.

Where the code and the module's documented intent differ, the model follows
the code:

- `res_kafka` never reads an `enabled` key. Any configuration file that loads
  enables it.
- Both `load_module`s ignore what `kafka_connect` returns. A module whose
  producer could not be created still loads successfully.
- `cdr_kafka`'s `reload` does not reload; it returns -1.
- Some functions end without returning a value: `stop_sched`,
  `handle_cli_kafka_produce` on valid input, and `exec` on valid input. The
  model returns no value for them (`CliNoValue`, or `None` for the return code).

## Model

| member | source | states |
|---|---|---|
| AstConfig.FoldCategoriesReadsGeneralOnly | res_kafka.c:207-218 | The nested category/variable loop equals one walk over the variables of the general categories, in file order; no other category is read. |
| AstConfig.OtherCategoryIgnored | res_kafka.c:208 | Inserting a category whose name is not "general" (in any case) anywhere in a file leaves the variables the modules read unchanged. |
| AstConfig.FoldTracksLastValue | cdr_kafka.c:156-174 | A loop step that overwrites one setting exactly when the key matches leaves that setting at the last matching value, or at its starting default if nothing matches. |
| AstConfig.LastValueIsLastOccurrence | res_kafka.c:210-216 | The reference value is the one at the last matching position, and it is absent exactly when no variable matches; a later occurrence overrides an earlier one. |
| AstConfig.SameIgnoringCaseMatchesSameKeys | res_kafka.c:211 | Names equal under strcasecmp match the same keys. |
| AstConfig.LastValueIgnoresCase | res_kafka.c:211 | Changing the case of variable names never changes the value a key takes. |
| AstConfig.LastValueSkipsOtherKeys | cel_kafka.c:163-165 | A variable whose name matches none of a key's spellings, wherever it stands, does not change that key's value. |
| KafkaConnect.ConfSetAll | res_kafka.c:80-87 | Properties are set in order. The chain stops at the first one librdkafka rejects, so nothing after it is attempted. It succeeds exactly when every property is accepted. |
| KafkaConnect.Connect | res_kafka.c:68-106 | The calls are exactly these, in order: one configuration object, the callbacks, the property chain's calls, and producer creation only if every property was accepted. The return code is 0 exactly when every property was accepted and creation succeeded. The handle changes only when creation is attempted, and then becomes whatever `rd_kafka_new` returned. |
| KafkaConnect.ConnectShape | res_kafka.c:68-106 | The number of calls is one, plus one per callback, plus one per property call, plus one when creation is attempted. The property calls form one contiguous run right after the callbacks. The last call is producer creation exactly when every property was accepted, and a producer is created exactly then. Every call is a producer-setup call. |
| ResKafka.LoadConfig | res_kafka.c:186-222 | An invalid or missing file returns -1 and assigns nothing. A file that loads returns 0, sets enabled whatever its keys, and sets a broker list; nothing else changes. |
| ResKafka.LoadedBrokers | res_kafka.c:203-218 | The broker list is the last `brokers`/`bootstrap.servers` value in the general sections, in any case, or 127.0.0.1:9092. |
| ResKafka.DefaultBrokersWithoutKey | res_kafka.c:205 | Without a broker key in any general section, the broker list is 127.0.0.1:9092. |
| ResKafka.BrokerAliasesAgree | res_kafka.c:211 | `brokers` and `bootstrap.servers`, in any case and under a "general" category written in any case, give the same state. |
| ResKafka.KafkaProduce | res_kafka.c:108-151 | When disabled, nothing reaches librdkafka. When enabled, there is exactly one enqueue of the given message followed by one non-blocking poll. The return is 0 either way, whether or not the enqueue was accepted. |
| ResKafka.StartSched | res_kafka.c:153-175 | An existing scheduler means no change and 0. Otherwise it returns 0 exactly when the context, the thread and the poll task all succeed, and then the task is added at 1000 ms. Every failure returns -1 with no scheduler, and the calls stop at the failing step. A failed context creation is the only call. A failed thread start or task add is followed by one context destroy and nothing else. Every call it makes is a scheduler call. |
| ResKafka.StartSchedContexts | res_kafka.c:157-172 | A start leaves one more live scheduler context exactly when it started the scheduler; every failure path destroys the context it created. |
| ResKafka.StopSched | res_kafka.c:177-183 | Afterwards there is no scheduler. An existing context is destroyed once; with none, nothing happens. |
| ResKafka.StopSchedTwice | res_kafka.c:177-183 | A second stop is a no-op. |
| ResKafka.StartSchedIdempotent | res_kafka.c:154-156 | Starting again after a start that succeeded returns 0 and makes no call. |
| ResKafka.StartThenStopReleasesContext | res_kafka.c:153-183 | A start from no scheduler followed by a stop leaves no scheduler and no live context, whatever the host answered. |
| ResKafka.DoPoll | res_kafka.c:63-66 | One run of the poll task is one non-blocking poll, and it asks to run again after the same 1000 ms interval it was first added with. |
| ResKafka.PollEveryInterval | res_kafka.c:63-66 | The i-th run of the poll task happens (i+1)·1000 ms after the task was added. |
| ResKafka.Connect | res_kafka.c:68-106 | The manager's connect returns 0 exactly when librdkafka accepts both the broker list and `statistics.interval.ms` "1000" and creates the producer. Its first property call hands the configured broker list to `bootstrap.servers`. If the broker list is rejected, the statistics interval is never set and the handle is kept. The handle is replaced by the creation result exactly when both properties are accepted. Every call is a producer-setup call. |
| ResKafka.LoadModule | res_kafka.c:272-281 | A configuration failure declines and makes no call. Otherwise it succeeds whatever connect and the scheduler report. The calls are exactly connect's calls for the loaded configuration, then the scheduler start's calls, then the two CLI registrations. The handle and the scheduler flag are the ones connect and the start leave; a scheduler that already existed stays. The broker list is the file's last general `brokers`/`bootstrap.servers` value, or the default, and the first property call of connect hands that list over. The statistics snapshot is untouched. Before the registrations every call is producer setup or a scheduler call, and no producer-setup call follows a scheduler call. The handle becomes the creation result when librdkafka accepts both properties and is kept otherwise. Without an earlier scheduler, one exists exactly when all three scheduler steps succeed. |
| ResKafka.LoadModuleContexts | res_kafka.c:272-281 | A successful load leaves one live scheduler context exactly when it started the scheduler. |
| ResKafka.UnloadModule | res_kafka.c:283-300 | The order is: flush for 10 s, report undelivered messages only when the queue is not empty, destroy the scheduler only if one exists, then destroy the producer and unregister both commands. That is exactly four calls, plus one for the report and one for the scheduler. The result is 0 and there is no scheduler, producer or broker list. |
| ResKafka.UnloadModuleContexts | res_kafka.c:293 | Unload destroys the scheduler context exactly when one exists and creates none. |
| ResKafka.LoadThenUnloadReleasesEverything | res_kafka.c:272-300 | A successful load followed by unload leaves no scheduler and no producer, and every context created has been destroyed. |
| ResKafka.StatsReceived | res_kafka.c:54-61 | The statistics callback replaces the snapshot and changes nothing else. |
| ResKafka.ApplyStatsAppend | res_kafka.c:54-61 | Receiving two runs of statistics documents one after the other leaves the same state as receiving them as one run. |
| ResKafka.StatsShowsLastDocument | res_kafka.c:54-264 | Statistics documents arrive through the callback before `kafka stats` and during its own poll. The command polls and then shows the last of all those documents. The state afterwards is that of receiving every document in order. |
| ResKafka.HandleCliProduce | res_kafka.c:224-246 | Set-up requests return NULL. A run shows usage exactly when there are not four words or the topic or message is empty. Otherwise it makes one produce call with the topic and message unchanged. |
| ResKafka.HandleCliStats | res_kafka.c:248-267 | More than two words shows usage with no call. Otherwise it does one non-blocking poll, then shows the snapshot and returns success. The snapshot shown is the one after the poll: the last document that poll delivered, or the earlier snapshot if it delivered none. Nothing else in the state changes. |
| ResKafka.CliProduceTrace | res_kafka.c:236-244 | Valid `kafka produce` words make one enqueue and one poll when the manager is enabled, and nothing when it is disabled. |
| CdrKafka.LoadConfig | cdr_kafka.c:120-191 | An unchanged file returns 0 and an invalid one returns -1, both changing nothing. A missing file returns -1, disables the backend, and suspends it only if it was enabled. A loaded file returns 0, sets brokers and topic, and suspends or unsuspends the backend from the new `enabled`. Every step keeps the invariant "enabled implies configured". |
| CdrKafka.LoadedSettings | cdr_kafka.c:152-174 | Each of `enabled`, `brokers` and `topic` takes its last general value in any case. Otherwise it keeps its default: false, 127.0.0.1:9092 and asterisk-cdr. |
| CdrKafka.SuspensionFollowsEnabled | cdr_kafka.c:182-188 | After a load, the backend is unsuspended exactly when the last general `enabled` value is true, and suspended otherwise. |
| CdrKafka.KafkaPut | cdr_kafka.c:193-284 | A disabled backend makes no call. An enabled one enqueues the record's document on the configured topic, then polls without blocking. The return is 0 either way. |
| CdrKafka.PutUsesConfiguredTopic | cdr_kafka.c:244-258 | After a load, records go to the file's last general `topic`, or to asterisk-cdr, and only while `enabled` is true. |
| CdrKafka.OrEmpty | cdr_kafka.c:235-236 | `S_OR(x, "")` gives the empty string when `x` is NULL or empty, and `x` itself otherwise. |
| CdrKafka.CdrDocumentKeys | cdr_kafka.c:219-238 | The document has the 18 keys in the format string's order, each once. |
| CdrKafka.CdrDocumentTypes | cdr_kafka.c:220 | `Duration` and `Billsec` are the only integers and carry the record's values. Every other member is a string. |
| CdrKafka.CdrDocumentAnswerTime | cdr_kafka.c:211-214 | AnswerTime is the empty string exactly when the answer time's seconds are zero. |
| CdrKafka.LoadModule | cdr_kafka.c:307-318 | If registration is refused, it declines without reading the configuration. If the configuration fails, the calls are registration, the configuration's own calls and unregistration, and it declines with the configuration's state, unregistered. Otherwise it succeeds whatever connect reports, with the configuration's state plus registration and connect's handle. The calls are then exactly registration, the suspend or unsuspend that follows the new `enabled`, and connect's calls for the configured broker list, with nothing after them. Connect's first property call hands that broker list over. The producer is created exactly when librdkafka accepts the broker list. |
| CdrKafka.LoadModuleFollowsFile | cdr_kafka.c:307-318 | Loading from the initial globals with a file, and with registration accepted, succeeds and registers. `enabled` and `topic` are the file's last general values, or false and asterisk-cdr. The backend is unsuspended exactly when enabled. Connect hands over the file's broker list. |
| CdrKafka.Reload | cdr_kafka.c:320-324 | Reload returns -1 and changes nothing. |
| CelKafka.ApplyVariable | cel_kafka.c:151-166 | An unknown key is logged and changes no setting. A known key adds no notice. |
| CelKafka.LoadConfig | cel_kafka.c:124-177 | An invalid or missing file returns -1 and changes nothing. A loaded file returns 0, sets the topic and the date format, and leaves the registration alone; every outcome keeps "enabled implies topic and date format set". |
| CelKafka.LoadedSettings | cel_kafka.c:140-167 | Each of `enabled`, `topic`, `dateformat` and `timezone` takes its last general value in any case. Otherwise it keeps its default: off, asterisk_cel, "%F %T" and no zone. One notice is logged per unknown key, in order. |
| CelKafka.FoldLogsUnknownOptions | cel_kafka.c:163-165 | The notices logged are those already logged followed by one per unknown key, in order. |
| CelKafka.UnknownKeyChangesNothing | cel_kafka.c:163-165 | Removing an unknown key from a general section, with "general" spelt in any case, leaves the loaded settings unchanged. |
| CelKafka.ObjAsIsShape | cel_kafka.c:69-96 | The event document has the 21 listed keys in order, each once. `amaflag` is the one integer and carries the record's flag. Every other value is a string. The event time is formatted with the configured zone and format. |
| CelKafka.Put | cel_kafka.c:99-122 | An event is sent exactly when `enablecel` is set, the record was filled and the document was created. It is sent once, on the configured topic, with the serialized document built with the configured zone and date format. |
| CelKafka.PutProducesOnConfiguredTopic | cel_kafka.c:114-120 | Through the connection manager, a passing event is one enqueue on the configured topic followed by one poll. |
| CelKafka.LoadModule | cel_kafka.c:180-191 | If the configuration fails, it declines without registering. Otherwise the calls are exactly the configuration's notices followed by one registration, the state is the configuration's state, and it succeeds exactly when registration is accepted. |
| CelKafka.PutAfterLoadFollowsFile | cel_kafka.c:99-191 | After loading from the initial globals with a file, and with registration accepted, the load succeeds and keeps "enabled implies topic and date format set". A filled record whose document was created is then sent exactly when the file's last general `enabled` value is true. It goes to the file's last general `topic`, or asterisk_cel. |
| CelKafka.UnloadModule | cel_kafka.c:193-200 | Unload unregisters the backend, frees the topic, the date format and the zone, keeps `enablecel` as it was, and returns 0. |
| CelKafka.LoadThenUnloadUnregisters | cel_kafka.c:180-200 | A load that registers the backend followed by an unload leaves it unregistered. The host hears one registration, after the configuration notices, and then one unregistration; `enablecel` keeps the value the file gave it. |
| AppKafka.Exec | app_kafka.c:27-47 | A blank topic is refused first, then a blank message, each with -1 and its own error, and nothing is produced. Otherwise exactly one produce call carries the topic and message unchanged. |
| AppKafka.ExecThroughManager | app_kafka.c:44-45 | Through the connection manager, valid arguments give one enqueue and one poll while the manager is enabled. Invalid arguments, or a disabled manager, give nothing. |

## Left out

- Concurrency: the `config_lock` rwlock in `cdr_kafka`, the scheduler thread, and the shared `static char *buf` in `ast_kafka_produce`. Every operation is treated as atomic and sequential.
- librdkafka internals: delivery, partitions, retries, flush timing and queue contents. Each call is a trace event whose outcome is a parameter.
- Delivery-report, log and error callbacks: they only write log lines. The statistics callback is modelled as a plain overwrite of the snapshot; the JSON re-formatting it does is not.
- Statistics served by other polls: the polls in `ast_kafka_produce` and in the poll task can also run the statistics callback. ResKafka.KafkaProduce and ResKafka.DoPoll record only the poll call; the documents such a poll delivers are applied separately with ResKafka.StatsReceived or ResKafka.ApplyStats.
- JSON serialization and time formatting (`ast_json_*`, `ast_localtime`, `ast_strftime`, `json_timeformat`): these are host libraries. A document is kept as its members, and a formatted time as the request to format it.
- The configuration parser and `ast_true` are host code: the parsed file and `ast_true`'s answers are parameters.
- `AST_STANDARD_APP_ARGS` splitting of the application's argument string is host code: `exec` takes the two arguments already split.
- Memory ownership, strdup/free and the leaked statistics string.
- Log lines, apart from the CEL notices for unknown keys.
- `cdr_kafka`'s `unload_module`: its `rd_kafka_destroy(handle)` refers to a name the file never declares, so the function has no defined behaviour.
- Registration and unregistration of the `KafkaProduce` application: they pass the host's answer straight through.
- ResKafka.LoadConfig, CelKafka.LoadConfig, their `LoadModule`s and CdrKafka.LoadModule require a result other than "unchanged". Those loaders pass no flags, so the host never answers "unchanged".
- CdrKafka.KafkaPut: sending on a producer handle that connect left NULL is undefined in librdkafka. The model records the enqueue and the poll as the code issues them, and does not say what a NULL handle does.
- ResKafka.KafkaProduce: when connect failed, `handle` stays NULL and the module still loads. `ast_kafka_produce`, the poll task (ResKafka.DoPoll), `kafka stats` (ResKafka.HandleCliStats) and ResKafka.UnloadModule then call librdkafka on a NULL handle (res_kafka.c:64, 113, 148, 263, 286-296). The model records those calls as the code issues them and does not say what librdkafka does with a NULL handle.
- CelKafka.UnloadModule: the freed strings are modelled as absent. `enablecel` keeps its value, so after unload only the unregistration keeps events away. A put after unload would read freed memory; CelKafka.Put requires "enabled implies topic and date format set" and so does not describe that case.
- CelKafka.ObjAsIsShape: `obj_as_is` ORs the results of `ast_json_object_set` into a variable it never reads, so a failed set still returns the document. The model assumes every set succeeds; a document with a member missing is not modelled.
- CdrKafka.CdrDocumentTypes: `Duration` and `Billsec` are C `long` values packed with the `int` format. The model keeps them as unbounded integers.

=== FILE: app_kafka.dfy ===
/**
 The `KafkaProduce(<topic>,<message>)` dialplan application (app_kafka):
 validate the two arguments and hand the message to the connection manager.
 */
module AppKafka {
  import opened Wrappers
  import opened Strings
  import opened Effects
  import ResKafka

  const TopicRequired: Str := "topic is required"
  const MessageRequired: Str := "message is required"

  /** The two application arguments as the host splits them; None where the argument is absent (NULL) */
  datatype AppArgs = AppArgs(topic: Option<Str>, message: Option<Str>)

  /** `ast_strlen_zero`: NULL or the empty string */
  predicate IsBlank(x: Option<Str>) {
    x.None? || x.value == ""
  }

  /**
   The outcome of one `exec`: the return code (None where execution falls off
   the end of the function without a return value), the error logged, and
   the produce call made.
   */
  datatype ExecResult = ExecResult(code: Option<int>, error: Option<Str>, call: Option<Message>)

  /**
   `exec`: a blank topic is refused first, then a blank message, each with
   -1 and its own error; otherwise exactly one produce call carries the
   message text on the named topic.
   */
  function Exec(args: AppArgs): (r: ExecResult)
    ensures r.call.Some? <==> !IsBlank(args.topic) && !IsBlank(args.message)
    ensures r.call.Some? ==> r.call.value == Message(args.topic.value, Text(args.message.value)) && r.error.None?
    ensures r.call.None? <==> r.code == Some(-1)
    ensures IsBlank(args.topic) ==> r.error == Some(TopicRequired)
    ensures !IsBlank(args.topic) && IsBlank(args.message) ==> r.error == Some(MessageRequired)
    ensures r.call.Some? ==> r.code.None?
  {
    if IsBlank(args.topic) then ExecResult(Some(-1), Some(TopicRequired), None)
    else if IsBlank(args.message) then ExecResult(Some(-1), Some(MessageRequired), None)
    else ExecResult(None, None, Some(Message(args.topic.value, Text(args.message.value))))
  }

  /**
   End to end through the connection manager: valid arguments reach
   librdkafka as one enqueue followed by a non-blocking poll while the
   manager is enabled, and as nothing otherwise; invalid arguments never
   reach it.
   */
  lemma ExecThroughManager(s: ResKafka.ResState, args: AppArgs, accepted: bool)
    ensures var trace := ResKafka.ProduceCall(s, Exec(args).call, accepted).trace;
            && (IsBlank(args.topic) || IsBlank(args.message) ==> trace == [])
            && (!IsBlank(args.topic) && !IsBlank(args.message) && s.enabled ==>
                  trace == [Enqueue(Message(args.topic.value, Text(args.message.value)), accepted), Poll(0)])
            && (!s.enabled ==> trace == [])
  {
  }
}

=== FILE: ast_config.dfy ===
/**
 Asterisk's configuration loader as the Kafka modules see it.

 `ast_config_load` hands back one of four outcomes; a parsed file is a
 sequence of categories, each a sequence of (name, value) variables. Every
 module walks the categories in file order, looks only at those named
 "general" (compared with `strcasecmp`), and walks their variables in order,
 so that a later occurrence of a key overrides an earlier one.

 `FoldCategories` is that nested walk; `GeneralVariables` and `LastValue` are
 the reference reading of it ("the value of the last matching key in the
 general sections, if any"), and the lemmas here connect the two.
 */
module AstConfig {
  import opened Wrappers
  import opened Strings

  datatype Variable = Variable(name: Str, value: Str)

  datatype Category = Category(name: Str, variables: seq<Variable>)

  /** CONFIG_STATUS_FILEUNCHANGED, CONFIG_STATUS_FILEINVALID, NULL, or a parsed file */
  datatype LoadResult =
    | FileUnchanged
    | FileInvalid
    | FileMissing
    | Loaded(categories: seq<Category>)

  /** `tolower` in the C locale: only ASCII capitals change */
  function Lower(c: char): char {
    if 'A' <= c <= 'Z' then (c as int - 'A' as int + 'a' as int) as char else c
  }

  /** `strcasecmp(a, b) == 0` */
  predicate SameIgnoringCase(a: Str, b: Str) {
    |a| == |b| && forall i :: 0 <= i < |a| ==> Lower(a[i]) == Lower(b[i])
  }

  /** `name` matches one of `keys` (a set of aliases) under `strcasecmp` */
  predicate IsKey(name: Str, keys: seq<Str>) {
    exists k :: k in keys && SameIgnoringCase(name, k)
  }

  const GeneralCategory: Str := "general"

  predicate IsGeneral(c: Category) {
    SameIgnoringCase(c.name, GeneralCategory)
  }

  /** The inner loop: apply `step` to each variable of one category, in order */
  function FoldVariables<S>(s: S, vars: seq<Variable>, step: (S, Variable) -> S): S
    decreases |vars|
  {
    if |vars| == 0 then s else FoldVariables(step(s, vars[0]), vars[1..], step)
  }

  /** The outer loop: walk the categories in order, folding the variables of the general ones */
  function FoldCategories<S>(s: S, cats: seq<Category>, step: (S, Variable) -> S): S
    decreases |cats|
  {
    if |cats| == 0 then s
    else
      var s' := if IsGeneral(cats[0]) then FoldVariables(s, cats[0].variables, step) else s;
      FoldCategories(s', cats[1..], step)
  }

  /** The variables of every general category, in file order */
  function GeneralVariables(cats: seq<Category>): (vs: seq<Variable>)
    decreases |cats|
  {
    if |cats| == 0 then []
    else (if IsGeneral(cats[0]) then cats[0].variables else []) + GeneralVariables(cats[1..])
  }

  /** The value of the last variable whose name is one of `keys`, if there is one */
  function LastValue(vars: seq<Variable>, keys: seq<Str>): Option<Str>
    decreases |vars|
  {
    if |vars| == 0 then None
    else
      match LastValue(vars[1..], keys)
      case Some(v) => Some(v)
      case None => if IsKey(vars[0].name, keys) then Some(vars[0].value) else None
  }

  /** Position `i` holds a matching key and no later position does */
  predicate IsLastOccurrence(vars: seq<Variable>, keys: seq<Str>, i: int) {
    && 0 <= i < |vars|
    && IsKey(vars[i].name, keys)
    && forall j :: i < j < |vars| ==> !IsKey(vars[j].name, keys)
  }

  /** `LastValue` is the value at the last matching position, and is absent exactly when nothing matches. */
  lemma {:induction false} LastValueIsLastOccurrence(vars: seq<Variable>, keys: seq<Str>)
    ensures LastValue(vars, keys).None? <==> forall i :: 0 <= i < |vars| ==> !IsKey(vars[i].name, keys)
    ensures LastValue(vars, keys).Some? ==>
              exists i :: IsLastOccurrence(vars, keys, i) && vars[i].value == LastValue(vars, keys).value
    decreases |vars|
  {
    if |vars| > 0 {
      var rest := vars[1..];
      LastValueIsLastOccurrence(rest, keys);
      match LastValue(rest, keys)
      case Some(v) =>
        var i :| IsLastOccurrence(rest, keys, i) && rest[i].value == v;
        assert IsLastOccurrence(vars, keys, i + 1);
      case None =>
        if IsKey(vars[0].name, keys) {
          assert IsLastOccurrence(vars, keys, 0);
        } else {
          forall i | 0 <= i < |vars|
            ensures !IsKey(vars[i].name, keys)
          {
            if i > 0 { assert vars[i] == rest[i - 1]; }
          }
        }
    }
  }

  lemma {:induction false} FoldVariablesAppend<S>(s: S, a: seq<Variable>, b: seq<Variable>, step: (S, Variable) -> S)
    ensures FoldVariables(s, a + b, step) == FoldVariables(FoldVariables(s, a, step), b, step)
    decreases |a|
  {
    if |a| == 0 {
      assert a + b == b;
    } else {
      assert (a + b)[0] == a[0];
      assert (a + b)[1..] == a[1..] + b;
      FoldVariablesAppend(step(s, a[0]), a[1..], b, step);
    }
  }

  /** The nested walk of the source equals one walk over the general variables: other categories are never read. */
  lemma {:induction false} FoldCategoriesReadsGeneralOnly<S>(s: S, cats: seq<Category>, step: (S, Variable) -> S)
    ensures FoldCategories(s, cats, step) == FoldVariables(s, GeneralVariables(cats), step)
    decreases |cats|
  {
    if |cats| > 0 {
      var first := if IsGeneral(cats[0]) then cats[0].variables else [];
      var s' := if IsGeneral(cats[0]) then FoldVariables(s, cats[0].variables, step) else s;
      assert s' == FoldVariables(s, first, step);
      FoldVariablesAppend(s, first, GeneralVariables(cats[1..]), step);
      FoldCategoriesReadsGeneralOnly(s', cats[1..], step);
    }
  }

  lemma {:induction false} GeneralVariablesAppend(a: seq<Category>, b: seq<Category>)
    ensures GeneralVariables(a + b) == GeneralVariables(a) + GeneralVariables(b)
    decreases |a|
  {
    if |a| == 0 {
      assert a + b == b;
    } else {
      var head := if IsGeneral(a[0]) then a[0].variables else [];
      assert (a + b)[0] == a[0];
      assert (a + b)[1..] == a[1..] + b;
      GeneralVariablesAppend(a[1..], b);
      calc {
        GeneralVariables(a + b);
        head + GeneralVariables(a[1..] + b);
        head + (GeneralVariables(a[1..]) + GeneralVariables(b));
        (head + GeneralVariables(a[1..])) + GeneralVariables(b);
      }
    }
  }

  /** The general variables of a file with one category `c` between `a` and `b` */
  lemma GeneralVariablesSplice(a: seq<Category>, c: Category, b: seq<Category>)
    ensures GeneralVariables(a + [c] + b) ==
              GeneralVariables(a) + (if IsGeneral(c) then c.variables else []) + GeneralVariables(b)
  {
    GeneralVariablesAppend(a + [c], b);
    GeneralVariablesAppend(a, [c]);
    assert [c][1..] == [];
  }

  /** The general variables of a file whose general category `n` holds `pre + [v] + post`, and of the same file without `v` */
  lemma GeneralVariableSplice(a: seq<Category>, b: seq<Category>, n: Str, pre: seq<Variable>, v: Variable,
                              post: seq<Variable>)
    requires SameIgnoringCase(n, GeneralCategory)
    ensures var x := GeneralVariables(a) + pre;
            var y := post + GeneralVariables(b);
            && GeneralVariables(a + [Category(n, pre + [v] + post)] + b) == x + [v] + y
            && GeneralVariables(a + [Category(n, pre + post)] + b) == x + y
  {
    var c := Category(n, pre + [v] + post);
    var c' := Category(n, pre + post);
    assert IsGeneral(c) && IsGeneral(c');
    GeneralVariablesSplice(a, c, b);
    GeneralVariablesSplice(a, c', b);
    Regroup(GeneralVariables(a), pre, [v], post, GeneralVariables(b));
    Regroup(GeneralVariables(a), pre, [], post, GeneralVariables(b));
    assert pre + [] + post == pre + post;
    assert (GeneralVariables(a) + pre) + [] + (post + GeneralVariables(b)) ==
           (GeneralVariables(a) + pre) + (post + GeneralVariables(b));
  }

  lemma Regroup<T>(g: seq<T>, p: seq<T>, m: seq<T>, q: seq<T>, h: seq<T>)
    ensures g + (p + m + q) + h == (g + p) + m + (q + h)
  {
  }

  /** Inserting a category that is not named "general" anywhere in a file changes nothing the modules read. */
  lemma OtherCategoryIgnored(a: seq<Category>, c: Category, b: seq<Category>)
    requires !IsGeneral(c)
    ensures GeneralVariables(a + [c] + b) == GeneralVariables(a + b)
  {
    GeneralVariablesSplice(a, c, b);
    GeneralVariablesAppend(a, b);
  }

  /** A variable that matches none of `keys` does not change their last value, wherever it stands. */
  lemma {:induction false} LastValueSkipsOtherKeys(x: seq<Variable>, v: Variable, y: seq<Variable>, keys: seq<Str>)
    requires !IsKey(v.name, keys)
    ensures LastValue(x + [v] + y, keys) == LastValue(x + y, keys)
    decreases |x|
  {
    if |x| == 0 {
      assert x + [v] + y == [v] + y && x + y == y;
      assert ([v] + y)[1..] == y;
    } else {
      assert (x + [v] + y)[1..] == x[1..] + [v] + y;
      assert (x + y)[1..] == x[1..] + y;
      assert (x + [v] + y)[0] == x[0] == (x + y)[0];
      LastValueSkipsOtherKeys(x[1..], v, y, keys);
    }
  }

  /**
   A fold whose step overwrites one field exactly when the variable's name is
   one of `keys` leaves that field at the last matching value, or at its
   starting value when no variable matches.
   */
  lemma {:induction false} FoldTracksLastValue<S, T>(s: S, vars: seq<Variable>, step: (S, Variable) -> S,
                                                    keys: seq<Str>, field: S -> T, convert: Str -> T)
    requires forall s', v :: field(step(s', v)) == if IsKey(v.name, keys) then convert(v.value) else field(s')
    ensures field(FoldVariables(s, vars, step)) ==
              match LastValue(vars, keys)
              case Some(x) => convert(x)
              case None => field(s)
    decreases |vars|
  {
    if |vars| > 0 {
      FoldTracksLastValue(step(s, vars[0]), vars[1..], step, keys, field, convert);
    }
  }

  /** Renaming variables so that each still matches `keys` exactly when it did before does not change `LastValue`. */
  lemma {:induction false} LastValueDependsOnlyOnMatches(vars: seq<Variable>, vars': seq<Variable>, keys: seq<Str>)
    requires |vars| == |vars'|
    requires forall i :: 0 <= i < |vars| ==> vars[i].value == vars'[i].value
    requires forall i :: 0 <= i < |vars| ==> (IsKey(vars[i].name, keys) <==> IsKey(vars'[i].name, keys))
    ensures LastValue(vars, keys) == LastValue(vars', keys)
    decreases |vars|
  {
    if |vars| > 0 {
      LastValueDependsOnlyOnMatches(vars[1..], vars'[1..], keys);
    }
  }

  /** Key matching ignores case: names equal under `strcasecmp` match the same keys. */
  lemma SameIgnoringCaseMatchesSameKeys(a: Str, b: Str, keys: seq<Str>)
    requires SameIgnoringCase(a, b)
    ensures IsKey(a, keys) <==> IsKey(b, keys)
  {
    if IsKey(a, keys) {
      var k :| k in keys && SameIgnoringCase(a, k);
      assert SameIgnoringCase(b, k);
    }
    if IsKey(b, keys) {
      var k :| k in keys && SameIgnoringCase(b, k);
      assert SameIgnoringCase(a, k);
    }
  }

  /** Changing the case of any variable names gives the same `LastValue`. */
  lemma LastValueIgnoresCase(vars: seq<Variable>, vars': seq<Variable>, keys: seq<Str>)
    requires |vars| == |vars'|
    requires forall i :: 0 <= i < |vars| ==> vars[i].value == vars'[i].value
    requires forall i :: 0 <= i < |vars| ==> SameIgnoringCase(vars[i].name, vars'[i].name)
    ensures LastValue(vars, keys) == LastValue(vars', keys)
  {
    forall i | 0 <= i < |vars|
      ensures IsKey(vars[i].name, keys) <==> IsKey(vars'[i].name, keys)
    {
      SameIgnoringCaseMatchesSameKeys(vars[i].name, vars'[i].name, keys);
    }
    LastValueDependsOnlyOnMatches(vars, vars', keys);
  }
}

=== FILE: ast_module.dfy ===
/** What the host's module loader hears back from a module's `load_module`. */
module AstModule {

  /** AST_MODULE_LOAD_SUCCESS or AST_MODULE_LOAD_DECLINE */
  datatype LoadStatus = LoadSuccess | LoadDecline
}

=== FILE: cdr_kafka.dfy ===
/**
 The Kafka CDR backend (cdr_kafka): its own producer, its configuration with
 backend suspension, and the JSON document built from a call detail record.
 Unlike the CEL backend it does not go through the connection manager: it
 enqueues on its own producer handle and polls it after every record.
 */
module CdrKafka {
  import opened Wrappers
  import opened Strings
  import opened AstConfig
  import opened Effects
  import opened Json
  import KafkaConnect
  import opened AstModule

  const DefaultBrokers: Str := "127.0.0.1:9092"
  const DefaultTopic: Str := "asterisk-cdr"

  const EnabledKeys: seq<Str> := ["enabled"]
  const BrokersKeys: seq<Str> := ["brokers"]
  const TopicKeys: seq<Str> := ["topic"]

  /**
   The module's globals: `enablecdr`, `kafka_brokers` and `kafka_topic`
   (None while NULL), whether the producer handle `rk` is set, and whether
   the backend is registered with the CDR core.
   */
  datatype CdrState = CdrState(enabled: bool, brokers: Option<Str>, topic: Option<Str>, handle: bool,
                               registered: bool)

  const Init := CdrState(false, None, None, false, false)

  /** Whenever records are accepted, a topic and brokers have been configured */
  predicate Consistent(s: CdrState) {
    s.enabled ==> s.brokers.Some? && s.topic.Some?
  }

  // ---------------------------------------------------------------------------
  // load_config

  /** `newenablecdr`, `kafka_brokers` and `kafka_topic` while the file is walked */
  datatype Settings = Settings(enabled: bool, brokers: Str, topic: Str)

  const Defaults := Settings(false, DefaultBrokers, DefaultTopic)

  /** One iteration of the variable loop; other keys are skipped silently */
  function ApplyVariable(isTrue: Str -> bool, c: Settings, v: Variable): Settings {
    if IsKey(v.name, EnabledKeys) then c.(enabled := isTrue(v.value))
    else if IsKey(v.name, BrokersKeys) then c.(brokers := v.value)
    else if IsKey(v.name, TopicKeys) then c.(topic := v.value)
    else c
  }

  function Step(isTrue: Str -> bool): (Settings, Variable) -> Settings {
    (c: Settings, v: Variable) => ApplyVariable(isTrue, c, v)
  }

  datatype ConfigStep = ConfigStep(code: int, state: CdrState, trace: seq<Event>)

  /**
   `load_config`. An unchanged file keeps everything; an invalid one fails
   and keeps everything; a missing one fails and turns the backend off,
   suspending it if it was on. A file that loads replaces brokers and topic
   (defaults, then the general keys), and suspends or unsuspends the backend
   according to the new `enabled`.
   */
  function LoadConfig(s: CdrState, file: LoadResult, isTrue: Str -> bool): (r: ConfigStep)
    ensures r.code == 0 || r.code == -1
    ensures r.code == 0 <==> file.FileUnchanged? || file.Loaded?
    ensures file.FileUnchanged? || file.FileInvalid? ==> r.state == s && r.trace == []
    ensures file.FileMissing? ==> r.state == s.(enabled := false) && r.trace == (if s.enabled then [CdrSuspend] else [])
    ensures file.Loaded? ==>
              && r.state.brokers.Some? && r.state.topic.Some?
              && r.trace == (if r.state.enabled then [CdrUnsuspend] else [CdrSuspend])
    ensures r.state.handle == s.handle && r.state.registered == s.registered
    ensures Consistent(s) ==> Consistent(r.state)
  {
    match file
    case FileUnchanged => ConfigStep(0, s, [])
    case FileInvalid => ConfigStep(-1, s, [])
    case FileMissing => ConfigStep(-1, s.(enabled := false), if s.enabled then [CdrSuspend] else [])
    case Loaded(cats) =>
      var c := FoldCategories(Defaults, cats, Step(isTrue));
      ConfigStep(0, s.(enabled := c.enabled, brokers := Some(c.brokers), topic := Some(c.topic)),
                 if c.enabled then [CdrUnsuspend] else [CdrSuspend])
  }

  lemma KeysAreExclusive(name: Str)
    ensures !(IsKey(name, EnabledKeys) && IsKey(name, BrokersKeys))
    ensures !(IsKey(name, EnabledKeys) && IsKey(name, TopicKeys))
    ensures !(IsKey(name, BrokersKeys) && IsKey(name, TopicKeys))
  {
    if IsKey(name, EnabledKeys) {
      assert Lower(name[0]) == 'e';
    }
    assert |TopicKeys[0]| == 5 && |EnabledKeys[0]| == 7;
  }

  /**
   A loaded file sets each of `enabled`, `brokers` and `topic` from its last
   occurrence in the general sections (any case), and from the default where
   the key does not occur.
   */
  lemma LoadedSettings(s: CdrState, cats: seq<Category>, isTrue: Str -> bool)
    ensures var vars := GeneralVariables(cats);
            var r := LoadConfig(s, Loaded(cats), isTrue);
            && r.state.enabled == (match LastValue(vars, EnabledKeys) case Some(x) => isTrue(x) case None => false)
            && r.state.brokers == Some(LastValue(vars, BrokersKeys).GetOr(DefaultBrokers))
            && r.state.topic == Some(LastValue(vars, TopicKeys).GetOr(DefaultTopic))
  {
    var vars := GeneralVariables(cats);
    var step := Step(isTrue);
    FoldCategoriesReadsGeneralOnly(Defaults, cats, step);
    forall v: Variable
      ensures !(IsKey(v.name, EnabledKeys) && IsKey(v.name, BrokersKeys))
      ensures !(IsKey(v.name, EnabledKeys) && IsKey(v.name, TopicKeys))
      ensures !(IsKey(v.name, BrokersKeys) && IsKey(v.name, TopicKeys))
    {
      KeysAreExclusive(v.name);
    }
    FoldTracksLastValue(Defaults, vars, step, EnabledKeys, (c: Settings) => c.enabled, isTrue);
    FoldTracksLastValue(Defaults, vars, step, BrokersKeys, (c: Settings) => c.brokers, (x: Str) => x);
    FoldTracksLastValue(Defaults, vars, step, TopicKeys, (c: Settings) => c.topic, (x: Str) => x);
  }

  /**
   Suspension follows the file: after a successful load the backend is
   unsuspended exactly when the last general `enabled` value is true.
   */
  lemma SuspensionFollowsEnabled(s: CdrState, cats: seq<Category>, isTrue: Str -> bool)
    ensures var r := LoadConfig(s, Loaded(cats), isTrue);
            (r.trace == [CdrUnsuspend] <==>
               LastValue(GeneralVariables(cats), EnabledKeys).Some? && isTrue(LastValue(GeneralVariables(cats), EnabledKeys).value))
  {
    LoadedSettings(s, cats, isTrue);
  }

  // ---------------------------------------------------------------------------
  // The record document (kafka_put)

  /**
   The fields of `struct ast_cdr` the document uses. The string fields are
   character arrays and never NULL; `disposition` and `amaflags` are the host's
   names for those codes, which may be NULL.
   */
  datatype CdrRecord = CdrRecord(
    accountCode: Str,
    source: Str,
    destination: Str,
    destinationContext: Str,
    callerId: Str,
    channel: Str,
    destinationChannel: Str,
    lastApplication: Str,
    lastData: Str,
    start: Timeval,
    answer: Timeval,
    end: Timeval,
    duration: int,
    billsec: int,
    disposition: Option<Str>,
    amaFlags: Option<Str>,
    uniqueId: Str,
    userField: Str)

  /**
   `S_OR(x, "")` on a string that may be NULL: the empty string when `x` is
   NULL or empty, `x` itself otherwise.
   */
  function OrEmpty(x: Option<Str>): (r: Str)
    ensures r == "" <==> x.None? || x.value == ""
    ensures r != "" ==> x == Some(r)
  {
    x.GetOr("")
  }

  /** The answer time: left empty for a call never answered (`tv_sec` zero), formatted otherwise */
  function AnswerTime(answer: Timeval): Value {
    if answer.sec != 0 then JTime(answer, None, HostDateFormat) else JString("")
  }

  const CdrKeys: seq<Str> := [
    "AccountCode", "Source", "Destination", "DestinationContext", "CallerID", "Channel",
    "DestinationChannel", "LastApplication", "LastData", "StartTime", "AnswerTime", "EndTime",
    "Duration", "Billsec", "Disposition", "AMAFlags", "UniqueID", "UserField"]

  /** The `ast_json_pack` call: eighteen members in the order of its format string */
  function CdrDocument(cdr: CdrRecord): Object {
    [ Member("AccountCode", JString(cdr.accountCode)),
      Member("Source", JString(cdr.source)),
      Member("Destination", JString(cdr.destination)),
      Member("DestinationContext", JString(cdr.destinationContext)),
      Member("CallerID", JString(cdr.callerId)),
      Member("Channel", JString(cdr.channel)),
      Member("DestinationChannel", JString(cdr.destinationChannel)),
      Member("LastApplication", JString(cdr.lastApplication)),
      Member("LastData", JString(cdr.lastData)),
      Member("StartTime", JTime(cdr.start, None, HostDateFormat)),
      Member("AnswerTime", AnswerTime(cdr.answer)),
      Member("EndTime", JTime(cdr.end, None, HostDateFormat)),
      Member("Duration", JInteger(cdr.duration)),
      Member("Billsec", JInteger(cdr.billsec)),
      Member("Disposition", JString(OrEmpty(cdr.disposition))),
      Member("AMAFlags", JString(OrEmpty(cdr.amaFlags))),
      Member("UniqueID", JString(cdr.uniqueId)),
      Member("UserField", JString(cdr.userField)) ]
  }

  lemma DistinctCdrKey(i: int, j: int)
    requires 0 <= i < j < |CdrKeys|
    ensures CdrKeys[i] != CdrKeys[j]
  {
    var a := CdrKeys[i];
    var b := CdrKeys[j];
    if |a| == |b| {
      assert a[0] != b[0] || a[|a| - 1] != b[|b| - 1] || a[1] != b[1];
    }
  }

  /** The document has the eighteen keys, in the order of the format string, each once. */
  lemma CdrDocumentKeys(cdr: CdrRecord)
    ensures Keys(CdrDocument(cdr)) == CdrKeys
    ensures NoDuplicates(CdrKeys)
  {
    assert Keys(CdrDocument(cdr)) == CdrKeys;
    forall i, j | 0 <= i < j < |CdrKeys|
      ensures CdrKeys[i] != CdrKeys[j]
    {
      DistinctCdrKey(i, j);
    }
  }

  /** `Duration` and `Billsec` are the only integer members and carry the record's values; every other value is a string. */
  lemma CdrDocumentTypes(cdr: CdrRecord)
    ensures var doc := CdrDocument(cdr);
            && (forall m :: m in doc ==> (m.value.JInteger? <==> m.key == "Duration" || m.key == "Billsec"))
            && (forall m :: m in doc && !m.value.JInteger? ==> IsString(m.value))
            && Member("Duration", JInteger(cdr.duration)) in doc
            && Member("Billsec", JInteger(cdr.billsec)) in doc
  {
    var doc := CdrDocument(cdr);
    assert doc[12] == Member("Duration", JInteger(cdr.duration));
    assert doc[13] == Member("Billsec", JInteger(cdr.billsec));
    forall m | m in doc
      ensures m.value.JInteger? <==> m.key == "Duration" || m.key == "Billsec"
      ensures !m.value.JInteger? ==> IsString(m.value)
    {
      var i :| 0 <= i < |doc| && doc[i] == m;
      CdrMemberType(cdr, i);
    }
  }

  lemma CdrMemberType(cdr: CdrRecord, i: int)
    requires 0 <= i < |CdrKeys|
    ensures var m := CdrDocument(cdr)[i];
            && (m.value.JInteger? <==> m.key == "Duration" || m.key == "Billsec")
            && (!m.value.JInteger? ==> IsString(m.value))
  {
    CdrDocumentKeys(cdr);
    assert CdrDocument(cdr)[i].key == CdrKeys[i];
    if i != 12 && i != 13 {
      DistinctCdrKey(if i < 12 then i else 12, if i < 12 then 12 else i);
      DistinctCdrKey(if i < 13 then i else 13, if i < 13 then 13 else i);
    }
  }

  /** The answer time is the empty string exactly when the call was never answered. */
  lemma CdrDocumentAnswerTime(cdr: CdrRecord)
    ensures Member("AnswerTime", JString("")) in CdrDocument(cdr) <==> cdr.answer.sec == 0
  {
    var doc := CdrDocument(cdr);
    assert doc[10] == Member("AnswerTime", AnswerTime(cdr.answer));
    if Member("AnswerTime", JString("")) in doc {
      var i :| 0 <= i < |doc| && doc[i] == Member("AnswerTime", JString(""));
      if i != 10 {
        DistinctCdrKey(if i < 10 then i else 10, if i < 10 then 10 else i);
      }
    }
  }

  datatype PutStep = PutStep(code: int, trace: seq<Event>)

  /**
   `kafka_put`: a disabled backend drops the record; an enabled one enqueues
   the document on the configured topic, whatever librdkafka answers, and
   then polls without blocking. It always reports success to the CDR core.
   */
  function KafkaPut(s: CdrState, cdr: CdrRecord, accepted: bool): (r: PutStep)
    requires Consistent(s)
    ensures r.code == 0
    ensures !s.enabled ==> r.trace == []
    ensures s.enabled ==>
              && |r.trace| == 2
              && r.trace[0] == Enqueue(Message(s.topic.value, Serialized(CdrDocument(cdr))), accepted)
              && r.trace[1] == Poll(0)
  {
    if !s.enabled then PutStep(0, [])
    else PutStep(0, [Enqueue(Message(s.topic.value, Serialized(CdrDocument(cdr))), accepted), Poll(0)])
  }

  /** Records reach the configured topic: with the file's last general `topic`, or the default. */
  lemma PutUsesConfiguredTopic(s: CdrState, cats: seq<Category>, isTrue: Str -> bool, cdr: CdrRecord, accepted: bool)
    ensures var loaded := LoadConfig(s, Loaded(cats), isTrue).state;
            var r := KafkaPut(loaded, cdr, accepted);
            && (r.trace != [] <==> loaded.enabled)
            && (r.trace != [] ==> r.trace[0].message.topic == LastValue(GeneralVariables(cats), TopicKeys).GetOr(DefaultTopic))
  {
    LoadedSettings(s, cats, isTrue);
  }

  // ---------------------------------------------------------------------------
  // kafka_connect

  /** The callbacks the CDR producer installs: no statistics callback */
  const Callbacks: seq<Callback> := [LogCallback, DeliveryReportCallback, ErrorCallback]

  function ConnectProperties(brokers: Str): seq<ConfProperty> {
    [ConfProperty("bootstrap.servers", brokers)]
  }

  // ---------------------------------------------------------------------------
  // Module load and reload

  datatype ModuleStep = ModuleStep(status: LoadStatus, state: CdrState, trace: seq<Event>)

  /**
   `load_module`: register the backend first (decline if the core refuses);
   then load the configuration, unregistering and declining if that fails;
   then connect, whose outcome does not affect the answer.
   */
  function LoadModule(s: CdrState, registers: bool, file: LoadResult, isTrue: Str -> bool,
                      accepts: ConfProperty -> bool, created: bool): (r: ModuleStep)
    requires !file.FileUnchanged?
    requires Consistent(s)
    ensures r.status == LoadSuccess <==> registers && file.Loaded?
    ensures |r.trace| >= 1 && r.trace[0] == CdrRegister(registers)
    ensures !registers ==> r.state == s && r.trace == [CdrRegister(false)]
    ensures registers && !file.Loaded? ==> r.trace[|r.trace| - 1] == CdrUnregister && !r.state.registered
    ensures r.status == LoadSuccess ==> r.state.brokers.Some?
    ensures r.status == LoadSuccess ==>
              && r.state.registered
              && r.state.handle == (if KafkaConnect.AllAccepted(ConnectProperties(r.state.brokers.value), accepts)
                                    then created else s.handle)
              && KafkaConnect.CreatesProducer(r.trace)
                 == KafkaConnect.AllAccepted(ConnectProperties(r.state.brokers.value), accepts)
    ensures Consistent(r.state)
    ensures registers && !file.Loaded? ==>
              && r.trace == [CdrRegister(true)] + LoadConfig(s, file, isTrue).trace + [CdrUnregister]
              && r.state == LoadConfig(s, file, isTrue).state.(registered := false)
    ensures r.status == LoadSuccess ==>
              && r.state.(handle := s.handle, registered := s.registered) == LoadConfig(s, file, isTrue).state
              && |r.trace| > 3 + |Callbacks|
              && r.trace[1] == (if r.state.enabled then CdrUnsuspend else CdrSuspend)
              && r.trace[2] == ConfNew
              && var p := ConfProperty("bootstrap.servers", r.state.brokers.value);
                 r.trace[3 + |Callbacks|] == ConfSet(p, accepts(p))
    ensures r.status == LoadSuccess ==>
              r.trace == [CdrRegister(true)] + LoadConfig(s, file, isTrue).trace
                         + KafkaConnect.Connect(Callbacks, ConnectProperties(r.state.brokers.value),
                                                s.handle, accepts, created).trace
  {
    if !registers then ModuleStep(LoadDecline, s, [CdrRegister(false)])
    else
      var c := LoadConfig(s, file, isTrue);
      if c.code != 0 then
        ModuleStep(LoadDecline, c.state.(registered := false), [CdrRegister(true)] + c.trace + [CdrUnregister])
      else
        LoadAndConnectFacts(s, c, accepts, created);
        LoadAndConnect(s, c, accepts, created)
  }

  /** The registered backend with configuration `c` applied, after `kafka_connect` */
  function LoadAndConnect(s: CdrState, c: ConfigStep, accepts: ConfProperty -> bool, created: bool): ModuleStep
    requires c.state.brokers.Some?
  {
    var conn := KafkaConnect.Connect(Callbacks, ConnectProperties(c.state.brokers.value), s.handle, accepts, created);
    ModuleStep(LoadSuccess, c.state.(handle := conn.handle, registered := true), [CdrRegister(true)] + c.trace + conn.trace)
  }

  /** What a load makes of a configuration step that applied a file */
  lemma LoadAndConnectFacts(s: CdrState, c: ConfigStep, accepts: ConfProperty -> bool, created: bool)
    requires c.state.brokers.Some? && Consistent(c.state)
    requires c.state.handle == s.handle && c.state.registered == s.registered
    requires c.trace == [if c.state.enabled then CdrUnsuspend else CdrSuspend]
    ensures var r := LoadAndConnect(s, c, accepts, created);
            && r.state.brokers.Some?
            && r.state.registered
            && r.state.handle == (if KafkaConnect.AllAccepted(ConnectProperties(r.state.brokers.value), accepts)
                                  then created else s.handle)
            && KafkaConnect.CreatesProducer(r.trace)
               == KafkaConnect.AllAccepted(ConnectProperties(r.state.brokers.value), accepts)
            && Consistent(r.state)
            && r.state.(handle := s.handle, registered := s.registered) == c.state
            && |r.trace| > 3 + |Callbacks|
            && r.trace[0] == CdrRegister(true)
            && r.trace[1] == (if r.state.enabled then CdrUnsuspend else CdrSuspend)
            && r.trace[2] == ConfNew
            && var p := ConfProperty("bootstrap.servers", r.state.brokers.value);
               r.trace[3 + |Callbacks|] == ConfSet(p, accepts(p))
  {
    var pre := [CdrRegister(true)] + c.trace;
    assert pre == [CdrRegister(true), if c.state.enabled then CdrUnsuspend else CdrSuspend];
    ConnectAfter(pre, c.state.brokers.value, s.handle, accepts, created);
  }

  /**
   The CDR connect after other calls: it creates a producer exactly when
   librdkafka accepts the broker list, and its first property call hands
   that list over.
   */
  lemma ConnectAfter(pre: seq<Event>, brokers: Str, hadHandle: bool, accepts: ConfProperty -> bool, created: bool)
    requires forall i :: 0 <= i < |pre| ==> !pre[i].ProducerNew?
    ensures var conn := KafkaConnect.Connect(Callbacks, ConnectProperties(brokers), hadHandle, accepts, created);
            var t := pre + conn.trace;
            var p := ConfProperty("bootstrap.servers", brokers);
            && |t| > |pre| + 1 + |Callbacks|
            && t[|pre|] == ConfNew
            && t[|pre| + 1 + |Callbacks|] == ConfSet(p, accepts(p))
            && (KafkaConnect.CreatesProducer(t) <==> KafkaConnect.AllAccepted(ConnectProperties(brokers), accepts))
  {
    var props := ConnectProperties(brokers);
    var conn := KafkaConnect.Connect(Callbacks, props, hadHandle, accepts, created);
    var t := pre + conn.trace;
    KafkaConnect.ConnectShape(Callbacks, props, hadHandle, accepts, created);
    var run := KafkaConnect.ConfSetAll(props, accepts).trace;
    assert |run| > 0 && run[0] == ConfSet(props[0], accepts(props[0]));
    assert conn.trace[1 + |Callbacks|] == conn.trace[1 + |Callbacks|..1 + |Callbacks| + |run|][0];
    assert t[|pre| + 1 + |Callbacks|] == conn.trace[1 + |Callbacks|];
    if KafkaConnect.CreatesProducer(conn.trace) {
      var i :| 0 <= i < |conn.trace| && conn.trace[i].ProducerNew?;
      assert t[|pre| + i] == conn.trace[i];
    }
    if KafkaConnect.CreatesProducer(t) {
      var i :| 0 <= i < |t| && t[i].ProducerNew?;
      assert i >= |pre| && t[i] == conn.trace[i - |pre|];
    }
  }

  /**
   Loading from the initial globals with a file: the backend registers, takes
   `enabled`, brokers and topic from the file's general sections, unsuspends
   itself exactly when the file enables it, and hands the file's broker list
   to librdkafka.
   */
  lemma LoadModuleFollowsFile(cats: seq<Category>, isTrue: Str -> bool, accepts: ConfProperty -> bool, created: bool)
    ensures var r := LoadModule(Init, true, Loaded(cats), isTrue, accepts, created);
            var vars := GeneralVariables(cats);
            var on := match LastValue(vars, EnabledKeys) case Some(x) => isTrue(x) case None => false;
            var brokers := LastValue(vars, BrokersKeys).GetOr(DefaultBrokers);
            var p := ConfProperty("bootstrap.servers", brokers);
            && r.status == LoadSuccess
            && r.state.registered
            && r.state.enabled == on
            && r.state.topic == Some(LastValue(vars, TopicKeys).GetOr(DefaultTopic))
            && r.trace[1] == (if on then CdrUnsuspend else CdrSuspend)
            && r.trace[3 + |Callbacks|] == ConfSet(p, accepts(p))
  {
    LoadedSettings(Init, cats, isTrue);
  }

  /** `reload`: re-reading the configuration is switched off; it reports failure and changes nothing */
  function Reload(s: CdrState): (r: ConfigStep)
    ensures r.code == -1 && r.state == s && r.trace == []
  {
    ConfigStep(-1, s, [])
  }
}

=== FILE: cel_kafka.dfy ===
/**
 The Kafka CEL backend (cel_kafka): its configuration, the gate chain in
 front of each channel event, and the JSON document built from an event
 record. It produces through the connection manager's `ast_kafka_produce`.
 */
module CelKafka {
  import opened Wrappers
  import opened Strings
  import opened AstConfig
  import opened Effects
  import opened Json
  import opened AstModule
  import ResKafka

  const DefaultTopic: Str := "asterisk_cel"
  const DefaultDateFormat: Str := "%F %T"

  const EnabledKeys: seq<Str> := ["enabled"]
  const TopicKeys: seq<Str> := ["topic"]
  const DateFormatKeys: seq<Str> := ["dateformat"]
  const TimezoneKeys: seq<Str> := ["timezone"]

  /** `enablecel`, `kafka_topic`, `dateformat` and `zone` after a successful load */
  datatype CelSettings = CelSettings(enabled: bool, topic: Str, dateformat: Str, zone: Option<Str>)

  const Defaults := CelSettings(false, DefaultTopic, DefaultDateFormat, None)

  /**
   The module's globals: `enablecel`, then `kafka_topic`, `dateformat` and
   `zone` (None while NULL or freed), and whether the backend is registered
   with the CEL core.
   */
  datatype CelState = CelState(enabled: bool, topic: Option<Str>, dateformat: Option<Str>, zone: Option<Str>,
                               registered: bool)

  const Init := CelState(false, None, None, None, false)

  /** Whenever events are accepted, the topic and the date format are set */
  predicate Consistent(s: CelState) {
    s.enabled ==> s.topic.Some? && s.dateformat.Some?
  }

  // ---------------------------------------------------------------------------
  // load_config

  predicate IsKnownKey(name: Str) {
    IsKey(name, EnabledKeys) || IsKey(name, TopicKeys) || IsKey(name, DateFormatKeys) || IsKey(name, TimezoneKeys)
  }

  /** The settings so far and the notices logged so far */
  datatype Loading = Loading(settings: CelSettings, notices: seq<Event>)

  /** One iteration of the variable loop; `isTrue` is the host's `ast_true` */
  function ApplyVariable(isTrue: Str -> bool, l: Loading, v: Variable): (r: Loading)
    ensures !IsKnownKey(v.name) ==> r.settings == l.settings && r.notices == l.notices + [UnknownOption(v.name)]
    ensures IsKnownKey(v.name) ==> r.notices == l.notices
  {
    if IsKey(v.name, EnabledKeys) then l.(settings := l.settings.(enabled := isTrue(v.value)))
    else if IsKey(v.name, TopicKeys) then l.(settings := l.settings.(topic := v.value))
    else if IsKey(v.name, DateFormatKeys) then l.(settings := l.settings.(dateformat := v.value))
    else if IsKey(v.name, TimezoneKeys) then l.(settings := l.settings.(zone := Some(v.value)))
    else l.(notices := l.notices + [UnknownOption(v.name)])
  }

  function Step(isTrue: Str -> bool): (Loading, Variable) -> Loading {
    (l: Loading, v: Variable) => ApplyVariable(isTrue, l, v)
  }

  datatype ConfigStep = ConfigStep(code: int, state: CelState, trace: seq<Event>)

  /**
   `load_config`: an invalid or missing file fails and assigns nothing; a
   file that loads starts from the defaults and applies its general keys.
   The loader is asked without the file-unchanged flag.
   */
  function LoadConfig(s: CelState, file: LoadResult, isTrue: Str -> bool): (r: ConfigStep)
    requires !file.FileUnchanged?
    ensures r.code == 0 || r.code == -1
    ensures r.code == 0 <==> file.Loaded?
    ensures r.code == -1 ==> r.state == s && r.trace == []
    ensures r.code == 0 ==> r.state.topic.Some? && r.state.dateformat.Some? && r.state.registered == s.registered
    ensures Consistent(s) ==> Consistent(r.state)
  {
    match file
    case FileInvalid => ConfigStep(-1, s, [])
    case FileMissing => ConfigStep(-1, s, [])
    case Loaded(cats) =>
      var l := FoldCategories(Loading(Defaults, []), cats, Step(isTrue));
      var c := l.settings;
      ConfigStep(0, s.(enabled := c.enabled, topic := Some(c.topic), dateformat := Some(c.dateformat), zone := c.zone),
                 l.notices)
  }

  /** The notices a walk over `vars` logs: one per unknown key, in order */
  function UnknownOptions(vars: seq<Variable>): seq<Event>
    decreases |vars|
  {
    if |vars| == 0 then []
    else (if IsKnownKey(vars[0].name) then [] else [UnknownOption(vars[0].name)]) + UnknownOptions(vars[1..])
  }

  lemma {:induction false} FoldLogsUnknownOptions(isTrue: Str -> bool, l: Loading, vars: seq<Variable>)
    ensures FoldVariables(l, vars, Step(isTrue)).notices == l.notices + UnknownOptions(vars)
    decreases |vars|
  {
    if |vars| > 0 {
      var l' := Step(isTrue)(l, vars[0]);
      FoldLogsUnknownOptions(isTrue, l', vars[1..]);
    }
  }

  /** The value a key takes after a walk: converted from its last occurrence, else the default */
  function Setting<T>(vars: seq<Variable>, keys: seq<Str>, convert: Str -> T, default: T): T {
    match LastValue(vars, keys)
    case Some(x) => convert(x)
    case None => default
  }

  lemma KeysAreExclusive(name: Str)
    ensures !(IsKey(name, EnabledKeys) && IsKey(name, TopicKeys))
    ensures !(IsKey(name, EnabledKeys) && IsKey(name, DateFormatKeys))
    ensures !(IsKey(name, EnabledKeys) && IsKey(name, TimezoneKeys))
    ensures !(IsKey(name, TopicKeys) && IsKey(name, DateFormatKeys))
    ensures !(IsKey(name, TopicKeys) && IsKey(name, TimezoneKeys))
    ensures !(IsKey(name, DateFormatKeys) && IsKey(name, TimezoneKeys))
  {
    assert |EnabledKeys[0]| == 7 && |TopicKeys[0]| == 5 && |DateFormatKeys[0]| == 10 && |TimezoneKeys[0]| == 8;
  }

  /**
   A loaded file yields, for each of the four keys, the value of its last
   occurrence in the general sections (any case), and the default where the
   key does not occur; unknown keys are logged, in order.
   */
  lemma LoadedSettings(s: CelState, cats: seq<Category>, isTrue: Str -> bool)
    ensures var vars := GeneralVariables(cats);
            var r := LoadConfig(s, Loaded(cats), isTrue);
            && r.state == s.(enabled := Setting(vars, EnabledKeys, isTrue, false),
                             topic := Some(Setting(vars, TopicKeys, (x: Str) => x, DefaultTopic)),
                             dateformat := Some(Setting(vars, DateFormatKeys, (x: Str) => x, DefaultDateFormat)),
                             zone := Setting(vars, TimezoneKeys, (x: Str) => Some(x), None))
            && r.trace == UnknownOptions(vars)
  {
    var vars := GeneralVariables(cats);
    var start := Loading(Defaults, []);
    var step := Step(isTrue);
    FoldCategoriesReadsGeneralOnly(start, cats, step);
    forall v: Variable
      ensures !(IsKey(v.name, EnabledKeys) && IsKey(v.name, TopicKeys))
      ensures !(IsKey(v.name, EnabledKeys) && IsKey(v.name, DateFormatKeys))
      ensures !(IsKey(v.name, EnabledKeys) && IsKey(v.name, TimezoneKeys))
      ensures !(IsKey(v.name, TopicKeys) && IsKey(v.name, DateFormatKeys))
      ensures !(IsKey(v.name, TopicKeys) && IsKey(v.name, TimezoneKeys))
      ensures !(IsKey(v.name, DateFormatKeys) && IsKey(v.name, TimezoneKeys))
    {
      KeysAreExclusive(v.name);
    }
    FoldTracksLastValue(start, vars, step, EnabledKeys, (l: Loading) => l.settings.enabled, isTrue);
    FoldTracksLastValue(start, vars, step, TopicKeys, (l: Loading) => l.settings.topic, (x: Str) => x);
    FoldTracksLastValue(start, vars, step, DateFormatKeys, (l: Loading) => l.settings.dateformat, (x: Str) => x);
    FoldTracksLastValue(start, vars, step, TimezoneKeys, (l: Loading) => l.settings.zone, (x: Str) => Some(x));
    FoldLogsUnknownOptions(isTrue, start, vars);
  }

  /** An unknown key changes no setting: dropping it from a general section, however "general" is spelt, gives the same settings. */
  lemma UnknownKeyChangesNothing(s: CelState, a: seq<Category>, b: seq<Category>, n: Str, pre: seq<Variable>,
                                 post: seq<Variable>, v: Variable, isTrue: Str -> bool)
    requires SameIgnoringCase(n, GeneralCategory)
    requires !IsKnownKey(v.name)
    ensures LoadConfig(s, Loaded(a + [Category(n, pre + [v] + post)] + b), isTrue).state ==
            LoadConfig(s, Loaded(a + [Category(n, pre + post)] + b), isTrue).state
  {
    var c := Category(n, pre + [v] + post);
    var c' := Category(n, pre + post);
    GeneralVariableSplice(a, b, n, pre, v, post);
    var x := GeneralVariables(a) + pre;
    var y := post + GeneralVariables(b);
    LoadedSettings(s, a + [c] + b, isTrue);
    LoadedSettings(s, a + [c'] + b, isTrue);
    LastValueSkipsOtherKeys(x, v, y, EnabledKeys);
    LastValueSkipsOtherKeys(x, v, y, TopicKeys);
    LastValueSkipsOtherKeys(x, v, y, DateFormatKeys);
    LastValueSkipsOtherKeys(x, v, y, TimezoneKeys);
  }

  // ---------------------------------------------------------------------------
  // The event document (obj_as_is)

  /** The fields of `struct ast_cel_event_record` that the document uses; the strings are those `ast_cel_fill_record` filled in */
  datatype CelRecord = CelRecord(
    eventTime: Timeval,
    eventName: Str,
    userDefinedName: Str,
    callerIdName: Str,
    callerIdNum: Str,
    callerIdAni: Str,
    callerIdRdnis: Str,
    callerIdDnid: Str,
    extension: Str,
    context: Str,
    channelName: Str,
    applicationName: Str,
    applicationData: Str,
    accountCode: Str,
    peerAccount: Str,
    uniqueId: Str,
    linkedId: Str,
    amaflag: nat,
    userField: Str,
    peer: Str,
    extra: Str)

  const CelKeys: seq<Str> := [
    "event_time", "event_name", "user_defined_name", "caller_id_name", "caller_id_num",
    "caller_id_ani", "caller_id_rdnis", "caller_id_dnid", "extension", "context",
    "channel_name", "application_name", "application_data", "account_code", "peer_account",
    "unique_id", "linked_id", "amaflag", "user_field", "peer", "extra"]

  /** `obj_as_is`: None when the empty object cannot be created; otherwise one member per key, set in order */
  function ObjAsIs(rec: CelRecord, zone: Option<Str>, dateformat: Str, created: bool): Option<Object> {
    if !created then None
    else Some([
      Member("event_time", JTime(rec.eventTime, zone, Strftime(dateformat))),
      Member("event_name", JString(rec.eventName)),
      Member("user_defined_name", JString(rec.userDefinedName)),
      Member("caller_id_name", JString(rec.callerIdName)),
      Member("caller_id_num", JString(rec.callerIdNum)),
      Member("caller_id_ani", JString(rec.callerIdAni)),
      Member("caller_id_rdnis", JString(rec.callerIdRdnis)),
      Member("caller_id_dnid", JString(rec.callerIdDnid)),
      Member("extension", JString(rec.extension)),
      Member("context", JString(rec.context)),
      Member("channel_name", JString(rec.channelName)),
      Member("application_name", JString(rec.applicationName)),
      Member("application_data", JString(rec.applicationData)),
      Member("account_code", JString(rec.accountCode)),
      Member("peer_account", JString(rec.peerAccount)),
      Member("unique_id", JString(rec.uniqueId)),
      Member("linked_id", JString(rec.linkedId)),
      Member("amaflag", JInteger(rec.amaflag)),
      Member("user_field", JString(rec.userField)),
      Member("peer", JString(rec.peer)),
      Member("extra", JString(rec.extra))])
  }

  /**
   The document has exactly the 21 listed keys, each once; `amaflag` is the
   one integer and carries the record's AMA flag; every other member is a
   string; the event time is formatted with the configured zone and format.
   */
  lemma ObjAsIsShape(rec: CelRecord, zone: Option<Str>, dateformat: Str)
    ensures var doc := ObjAsIs(rec, zone, dateformat, true).value;
            && Keys(doc) == CelKeys
            && NoDuplicates(CelKeys)
            && |doc| == 21
            && (forall m :: m in doc ==> (m.key == "amaflag" <==> m.value.JInteger?))
            && (forall m :: m in doc && m.key != "amaflag" ==> IsString(m.value))
            && Member("amaflag", JInteger(rec.amaflag)) in doc
            && Member("event_time", JTime(rec.eventTime, zone, Strftime(dateformat))) in doc
  {
    var doc := ObjAsIs(rec, zone, dateformat, true).value;
    assert Keys(doc) == CelKeys;
    assert NoDuplicates(CelKeys) by {
      forall i, j | 0 <= i < j < |CelKeys|
        ensures CelKeys[i] != CelKeys[j]
      {
        DistinctCelKey(i, j);
      }
    }
    forall m | m in doc
      ensures m.key == "amaflag" <==> m.value.JInteger?
    {
      var i :| 0 <= i < |doc| && doc[i] == m;
      CelMemberType(rec, zone, dateformat, i);
    }
  }

  lemma CelMemberType(rec: CelRecord, zone: Option<Str>, dateformat: Str, i: int)
    requires 0 <= i < |CelKeys|
    ensures var m := ObjAsIs(rec, zone, dateformat, true).value[i];
            m.key == "amaflag" <==> m.value.JInteger?
  {
    var doc := ObjAsIs(rec, zone, dateformat, true).value;
    assert Keys(doc) == CelKeys;
    assert doc[i].key == CelKeys[i];
    if i != 17 {
      DistinctCelKey(if i < 17 then i else 17, if i < 17 then 17 else i);
    }
  }

  lemma DistinctCelKey(i: int, j: int)
    requires 0 <= i < j < |CelKeys|
    ensures CelKeys[i] != CelKeys[j]
  {
    var a := CelKeys[i];
    var b := CelKeys[j];
    if |a| == |b| {
      assert a[0] != b[0] || a[|a| - 1] != b[|b| - 1] || a[|a| - 2] != b[|b| - 2] || a[6] != b[6];
    }
  }

  // ---------------------------------------------------------------------------
  // cel_kafka_put

  /**
   `cel_kafka_put`: nothing unless the module is enabled, the host filled the
   event record (`filled` is None when `ast_cel_fill_record` fails) and the
   document object was created; otherwise one produce call on the configured
   topic carrying the serialized document.
   */
  function Put(s: CelState, filled: Option<CelRecord>, created: bool): (call: Option<Message>)
    requires Consistent(s)
    ensures call.Some? <==> s.enabled && filled.Some? && created
    ensures call.Some? ==>
              call.value == Message(s.topic.value,
                                    Serialized(ObjAsIs(filled.value, s.zone, s.dateformat.value, true).value))
  {
    if !s.enabled then None
    else match filled
      case None => None
      case Some(rec) =>
        match ObjAsIs(rec, s.zone, s.dateformat.value, created)
        case None => None
        case Some(doc) => Some(Message(s.topic.value, Serialized(doc)))
  }

  /** Through the connection manager, an event that passes the gates makes one enqueue on the configured topic, then one poll. */
  lemma PutProducesOnConfiguredTopic(s: CelState, res: ResKafka.ResState, rec: CelRecord, accepted: bool)
    requires Consistent(s) && s.enabled && res.enabled
    ensures var trace := ResKafka.ProduceCall(res, Put(s, Some(rec), true), accepted).trace;
            && |trace| == 2
            && trace[0].Enqueue? && trace[0].message.topic == s.topic.value
            && trace[1] == Poll(0)
  {
  }

  // ---------------------------------------------------------------------------
  // Module load and unload

  datatype ModuleStep = ModuleStep(status: LoadStatus, state: CelState, trace: seq<Event>)

  /** `load_module`: decline without registering when the configuration fails; decline when registration fails */
  function LoadModule(s: CelState, file: LoadResult, isTrue: Str -> bool, registers: bool): (r: ModuleStep)
    requires !file.FileUnchanged?
    ensures r.status == LoadSuccess <==> file.Loaded? && registers
    ensures !file.Loaded? ==> r.state == s && r.trace == []
    ensures file.Loaded? ==> |r.trace| > 0 && r.trace[|r.trace| - 1] == CelRegister(registers)
    ensures forall i :: 0 <= i < |r.trace| - 1 ==> r.trace[i].UnknownOption?
    ensures r.state.registered == (s.registered || r.status == LoadSuccess)
    ensures file.Loaded? ==>
              && r.trace == LoadConfig(s, file, isTrue).trace + [CelRegister(registers)]
              && r.state.(registered := s.registered) == LoadConfig(s, file, isTrue).state
  {
    var c := LoadConfig(s, file, isTrue);
    if c.code != 0 then ModuleStep(LoadDecline, s, [])
    else
      assert c.trace == UnknownOptions(GeneralVariables(file.categories)) by {
        LoadedSettings(s, file.categories, isTrue);
      }
      UnknownOptionsAreNotices(GeneralVariables(file.categories));
      var trace := c.trace + [CelRegister(registers)];
      if registers then ModuleStep(LoadSuccess, c.state.(registered := true), trace)
      else ModuleStep(LoadDecline, c.state, trace)
  }

  /**
   After a load from the initial globals that registers, an event is sent
   exactly when the file's `enabled` is true (and the record is filled and
   the document created), on the file's topic.
   */
  lemma PutAfterLoadFollowsFile(cats: seq<Category>, isTrue: Str -> bool, rec: CelRecord)
    ensures var l := LoadModule(Init, Loaded(cats), isTrue, true);
            var vars := GeneralVariables(cats);
            && l.status == LoadSuccess
            && Consistent(l.state)
            && (Put(l.state, Some(rec), true).Some? <==> Setting(vars, EnabledKeys, isTrue, false))
            && (Put(l.state, Some(rec), true).Some? ==>
                  Put(l.state, Some(rec), true).value.topic == Setting(vars, TopicKeys, (x: Str) => x, DefaultTopic))
  {
    LoadedSettings(Init, cats, isTrue);
  }

  lemma {:induction false} UnknownOptionsAreNotices(vars: seq<Variable>)
    ensures forall i :: 0 <= i < |UnknownOptions(vars)| ==> UnknownOptions(vars)[i].UnknownOption?
    decreases |vars|
  {
    if |vars| > 0 {
      UnknownOptionsAreNotices(vars[1..]);
    }
  }

  datatype UnloadStep = UnloadStep(code: int, state: CelState, trace: seq<Event>)

  /**
   `unload_module`: unregister the backend and free the three strings; it
   always reports success. `enablecel` keeps its value: it is the
   unregistration that stops the host from calling the backend.
   */
  function UnloadModule(s: CelState): (r: UnloadStep)
    ensures r.code == 0
    ensures !r.state.registered && r.trace == [CelUnregister]
    ensures r.state.topic.None? && r.state.dateformat.None? && r.state.zone.None?
    ensures r.state.enabled == s.enabled
  {
    UnloadStep(0, s.(topic := None, dateformat := None, zone := None, registered := false), [CelUnregister])
  }

  /**
   A load that registers the backend, followed by an unload, leaves it
   unregistered: the host hears one registration and then one
   unregistration, and `enablecel` keeps the value the file gave it.
   */
  lemma LoadThenUnloadUnregisters(s: CelState, cats: seq<Category>, isTrue: Str -> bool)
    ensures var load := LoadModule(s, Loaded(cats), isTrue, true);
            var unload := UnloadModule(load.state);
            && load.status == LoadSuccess
            && load.state.registered && !unload.state.registered
            && (load.trace + unload.trace)[|load.trace| - 1] == CelRegister(true)
            && (load.trace + unload.trace)[|load.trace|] == CelUnregister
            && (forall i :: 0 <= i < |load.trace| - 1 ==> load.trace[i] != CelRegister(true))
            && unload.state.enabled == Setting(GeneralVariables(cats), EnabledKeys, isTrue, false)
  {
    LoadedSettings(s, cats, isTrue);
  }
}

=== FILE: effects.dfy ===
/**
 What the modules do to the world, recorded as a trace: every librdkafka call
 (configuration, enqueue, poll, flush, destroy) and every host call
 (scheduler, CLI and backend registration, suspension, notices) whose order
 or presence the modules decide. The library's and the host's answers to
 those calls are inputs to the model, recorded in the event where they
 matter.
 */
module Effects {
  import opened Strings
  import Wrappers
  import Json

  /** A message body: plain text, or the serialization of a JSON document */
  datatype Payload = Text(text: Str) | Serialized(document: Json.Object)

  datatype Message = Message(topic: Str, payload: Payload)

  /** The callbacks installed on a librdkafka configuration object */
  datatype Callback = LogCallback | DeliveryReportCallback | ErrorCallback | StatsCallback

  /** One `rd_kafka_conf_set(conf, name, value, ...)` request */
  datatype ConfProperty = ConfProperty(name: Str, value: Str)

  datatype Event =
    // librdkafka
    | ConfNew
    | ConfSetCallback(callback: Callback)
    | ConfSet(property: ConfProperty, accepted: bool)
    | ProducerNew(created: bool)
    | Enqueue(message: Message, accepted: bool)
    | Poll(timeoutMs: int)
    | Flush(timeoutMs: int)
    | NotDelivered(count: nat)
    | ProducerDestroy
    // the host's scheduler
    | SchedCreate(created: bool)
    | SchedStartThread(started: bool)
    | SchedAdd(intervalMs: int, added: bool)
    | SchedDestroy
    // the host's CLI and record backends
    | CliRegister(command: Str)
    | CliUnregister(command: Str)
    | StatsShown(snapshot: Wrappers.Option<Str>)
    | CdrRegister(registered: bool)
    | CdrUnregister
    | CdrSuspend
    | CdrUnsuspend
    | CelRegister(registered: bool)
    | CelUnregister
    | UnknownOption(name: Str)
}

=== FILE: json.dfy ===
/**
 JSON documents as the record adapters build them (`ast_json_pack`,
 `ast_json_object_set`). Serialization and time formatting belong to the
 host's JSON and time libraries; a document is kept as its members in
 insertion order, and a formatted time is kept as the request to format it.
 */
module Json {
  import opened Wrappers
  import opened Strings

  /** A `struct timeval` */
  datatype Timeval = Timeval(sec: int, usec: int)

  /** The host's DATE_FORMAT, or an explicit strftime pattern */
  datatype TimeFormat = HostDateFormat | Strftime(pattern: Str)

  /**
   A member value. `JTime` is a JSON string produced by `ast_localtime` and
   `ast_strftime` from a time, a zone (None is the local zone) and a format.
   The host's DATE_FORMAT always yields a non-empty string; a configured
   strftime pattern may yield an empty one, and nothing here depends on it.
   */
  datatype Value =
    | JString(text: Str)
    | JInteger(number: int)
    | JTime(time: Timeval, zone: Option<Str>, format: TimeFormat)

  datatype Member = Member(key: Str, value: Value)

  type Object = seq<Member>

  /** Values that serialize as JSON strings */
  predicate IsString(v: Value) {
    v.JString? || v.JTime?
  }

  /** The member keys, in insertion order */
  function Keys(o: Object): (ks: seq<Str>)
    ensures |ks| == |o|
    ensures forall i :: 0 <= i < |o| ==> ks[i] == o[i].key
  {
    seq(|o|, i requires 0 <= i < |o| => o[i].key)
  }

  predicate NoDuplicates(ks: seq<Str>) {
    forall i, j :: 0 <= i < j < |ks| ==> ks[i] != ks[j]
  }
}

=== FILE: kafka_connect.dfy ===
/**
 The `kafka_connect` step sequence shared by the connection manager and the
 CDR backend: create a configuration object, install callbacks, set
 properties one by one stopping at the first one librdkafka rejects, and
 only then create the producer.
 */
module KafkaConnect {
  import opened Effects

  predicate AllAccepted(props: seq<ConfProperty>, accepts: ConfProperty -> bool) {
    forall i :: 0 <= i < |props| ==> accepts(props[i])
  }

  datatype ConfRun = ConfRun(ok: bool, trace: seq<Event>)

  /** The number of properties accepted before the first one rejected (all of them when none is) */
  function AcceptedPrefix(props: seq<ConfProperty>, accepts: ConfProperty -> bool): (k: nat)
    ensures k <= |props|
    ensures forall i :: 0 <= i < k ==> accepts(props[i])
    ensures k < |props| ==> !accepts(props[k])
    decreases |props|
  {
    if |props| == 0 || !accepts(props[0]) then 0
    else
      var k := 1 + AcceptedPrefix(props[1..], accepts);
      assert forall i :: 1 <= i < k ==> props[i] == props[1..][i - 1];
      k
  }

  /**
   The `if (rd_kafka_conf_set(...) != RD_KAFKA_CONF_OK) return 1;` chain: one
   call per property up to and including the first rejected one.
   */
  function ConfSetAll(props: seq<ConfProperty>, accepts: ConfProperty -> bool): (r: ConfRun)
    ensures r.ok <==> AllAccepted(props, accepts)
    ensures r.ok ==> |r.trace| == |props|
    ensures |r.trace| <= |props|
    ensures forall i :: 0 <= i < |r.trace| ==> r.trace[i] == ConfSet(props[i], accepts(props[i]))
    ensures !r.ok ==> |r.trace| > 0 && !accepts(props[|r.trace| - 1])
    ensures forall i :: 0 <= i < |r.trace| - 1 ==> accepts(props[i])
  {
    var k := AcceptedPrefix(props, accepts);
    var n := if k == |props| then k else k + 1;
    ConfRun(k == |props|, seq(n, i requires 0 <= i < n => ConfSet(props[i], accepts(props[i]))))
  }

  function CallbackEvents(callbacks: seq<Callback>): (es: seq<Event>)
    ensures |es| == |callbacks|
    ensures forall i :: 0 <= i < |callbacks| ==> es[i] == ConfSetCallback(callbacks[i])
  {
    seq(|callbacks|, i requires 0 <= i < |callbacks| => ConfSetCallback(callbacks[i]))
  }

  /** Events of building a producer: configuration and creation calls only */
  predicate IsProducerSetup(e: Event) {
    e.ConfNew? || e.ConfSetCallback? || e.ConfSet? || e.ProducerNew?
  }

  predicate CreatesProducer(trace: seq<Event>) {
    exists i :: 0 <= i < |trace| && trace[i].ProducerNew?
  }

  /** The result of `kafka_connect`: its return code, whether a producer handle is now held, and the calls made */
  datatype Connection = Connection(code: int, handle: bool, trace: seq<Event>)

  /**
   `kafka_connect`. The handle variable is assigned only by `rd_kafka_new`, so it
   keeps its previous value when a property is rejected and becomes NULL when
   creation fails.
   */
  function Connect(callbacks: seq<Callback>, props: seq<ConfProperty>, hadHandle: bool,
                   accepts: ConfProperty -> bool, created: bool): (r: Connection)
    ensures r.code == 0 || r.code == 1
    ensures r.code == 0 <==> AllAccepted(props, accepts) && created
    ensures r.handle == if AllAccepted(props, accepts) then created else hadHandle
    ensures r.trace == [ConfNew] + CallbackEvents(callbacks) + ConfSetAll(props, accepts).trace
                       + (if AllAccepted(props, accepts) then [ProducerNew(created)] else [])
  {
    var run := ConfSetAll(props, accepts);
    var tail := if run.ok then [ProducerNew(created)] else [];
    Connection(if run.ok && created then 0 else 1, if run.ok then created else hadHandle,
               [ConfNew] + CallbackEvents(callbacks) + run.trace + tail)
  }

  /**
   The calls `kafka_connect` makes: a configuration object, the callbacks in
   order, every property call of the chain in order, and creation last,
   exactly when every property was accepted; nothing but producer set-up.
   */
  lemma ConnectShape(callbacks: seq<Callback>, props: seq<ConfProperty>, hadHandle: bool,
                     accepts: ConfProperty -> bool, created: bool)
    ensures var r := Connect(callbacks, props, hadHandle, accepts, created);
            var run := ConfSetAll(props, accepts).trace;
            && |r.trace| == 1 + |callbacks| + |run| + (if AllAccepted(props, accepts) then 1 else 0)
            && r.trace[0] == ConfNew
            && (forall i :: 0 <= i < |callbacks| ==> r.trace[1 + i] == ConfSetCallback(callbacks[i]))
            && r.trace[1 + |callbacks|..1 + |callbacks| + |run|] == run
            && (AllAccepted(props, accepts) <==> r.trace[|r.trace| - 1] == ProducerNew(created))
            && (CreatesProducer(r.trace) <==> AllAccepted(props, accepts))
            && (forall i :: 0 <= i < |r.trace| ==> IsProducerSetup(r.trace[i]))
  {
    var run := ConfSetAll(props, accepts);
    var tail := if run.ok then [ProducerNew(created)] else [];
    ConnectTraceFacts(callbacks, run.trace, tail);
  }

  /**
   The calls of `kafka_connect`: set-up calls, then the property calls, then
   creation if it is attempted; only the last can create a producer.
   */
  lemma ConnectTraceFacts(callbacks: seq<Callback>, run: seq<Event>, tail: seq<Event>)
    requires forall i :: 0 <= i < |run| ==> run[i].ConfSet?
    requires tail == [] || (|tail| == 1 && tail[0].ProducerNew?)
    ensures var t := [ConfNew] + CallbackEvents(callbacks) + run + tail;
            && |t| == 1 + |callbacks| + |run| + |tail|
            && t[0] == ConfNew
            && (forall i :: 0 <= i < |callbacks| ==> t[1 + i] == ConfSetCallback(callbacks[i]))
            && t[1 + |callbacks|..1 + |callbacks| + |run|] == run
            && (CreatesProducer(t) <==> tail != [])
            && (t[|t| - 1].ProducerNew? <==> tail != [])
            && (tail != [] ==> t[|t| - 1] == tail[0])
            && (forall i :: 0 <= i < |t| ==> IsProducerSetup(t[i]))
  {
    var setup := [ConfNew] + CallbackEvents(callbacks);
    var t := setup + run + tail;
    assert |setup| == 1 + |callbacks|;
    forall i | 0 <= i < |setup|
      ensures setup[i].ConfNew? || setup[i].ConfSetCallback?
    {
      if i > 0 {
        assert setup[i] == CallbackEvents(callbacks)[i - 1];
      }
    }
    ProducerOnlyAtEnd(setup, run, tail);
    forall i | 0 <= i < |callbacks|
      ensures t[1 + i] == ConfSetCallback(callbacks[i])
    {
      assert t[1 + i] == setup[1 + i] == CallbackEvents(callbacks)[i];
    }
    assert t[|setup|..|setup| + |run|] == run;
    assert t[0] == setup[0];
  }

  lemma ProducerOnlyAtEnd(setup: seq<Event>, run: seq<Event>, tail: seq<Event>)
    requires forall i :: 0 <= i < |setup| ==> setup[i].ConfNew? || setup[i].ConfSetCallback?
    requires forall i :: 0 <= i < |run| ==> run[i].ConfSet?
    requires tail == [] || (|tail| == 1 && tail[0].ProducerNew?)
    ensures var t := setup + run + tail;
            && (forall i :: 0 <= i < |t| ==> IsProducerSetup(t[i]) && (t[i].ProducerNew? <==> tail != [] && i == |t| - 1))
            && (CreatesProducer(t) <==> tail != [])
  {
    var t := setup + run + tail;
    forall i | 0 <= i < |t|
      ensures IsProducerSetup(t[i]) && (t[i].ProducerNew? <==> tail != [] && i == |t| - 1)
    {
      if i < |setup| {
        assert t[i] == setup[i];
      } else if i < |setup| + |run| {
        assert t[i] == run[i - |setup|];
      }
    }
    if tail != [] {
      assert t[|t| - 1].ProducerNew?;
    }
  }
}

=== FILE: res_kafka.dfy ===
/**
 The Kafka connection manager (res_kafka): configuration, the produce
 operation other modules call, the poll scheduler, connect, module
 load/unload and the two CLI commands.

 The module's globals (`enabled`, `kafka_brokers`, the producer `handle`, the
 scheduler context `sched`, the `json_stats` snapshot) are one immutable
 state record; each operation returns the new state and the calls it made.
 */
module ResKafka {
  import opened Wrappers
  import opened Strings
  import opened AstConfig
  import opened Effects
  import KafkaConnect
  import opened AstModule

  const DefaultBrokers: Str := "127.0.0.1:9092"
  const PollIntervalMs: int := 1000
  const FlushTimeoutMs: int := 10 * 1000
  const StatsIntervalMs: Str := "1000"

  /** `brokers` and `bootstrap.servers` are aliases for the broker list */
  const BrokerKeys: seq<Str> := ["brokers", "bootstrap.servers"]

  const StatsCommand: Str := "kafka stats"
  const ProduceCommand: Str := "kafka produce"

  datatype ResState = ResState(
    enabled: bool,
    brokers: Option<Str>,
    handle: bool,
    sched: bool,
    stats: Option<Str>)

  /** The globals before the module is loaded: all zero or NULL */
  const Init := ResState(false, None, false, false, None)

  // ---------------------------------------------------------------------------
  // load_config

  function ApplyVariable(brokers: Str, v: Variable): Str {
    if IsKey(v.name, BrokerKeys) then v.value else brokers
  }

  datatype ConfigStep = ConfigStep(code: int, state: ResState)

  /**
   `load_config`. The loader is asked without the file-unchanged flag, so it
   never answers "unchanged". A file that loads always enables the module;
   no `enabled` key is read.
   */
  function LoadConfig(s: ResState, file: LoadResult): (r: ConfigStep)
    requires !file.FileUnchanged?
    ensures r.code == 0 || r.code == -1
    ensures r.code == 0 <==> file.Loaded?
    ensures r.code == -1 ==> r.state == s
    ensures r.code == 0 ==> r.state.enabled && r.state.brokers.Some?
    ensures r.state == s.(enabled := r.state.enabled, brokers := r.state.brokers)
  {
    match file
    case FileInvalid => ConfigStep(-1, s)
    case FileMissing => ConfigStep(-1, s)
    case Loaded(cats) =>
      ConfigStep(0, s.(enabled := true, brokers := Some(FoldCategories(DefaultBrokers, cats, ApplyVariable))))
  }

  /** The broker list of a loaded file is the last `brokers`/`bootstrap.servers` value in its general sections, or the default. */
  lemma LoadedBrokers(s: ResState, cats: seq<Category>)
    ensures LoadConfig(s, Loaded(cats)).state.brokers ==
              Some(LastValue(GeneralVariables(cats), BrokerKeys).GetOr(DefaultBrokers))
  {
    FoldCategoriesReadsGeneralOnly(DefaultBrokers, cats, ApplyVariable);
    FoldTracksLastValue(DefaultBrokers, GeneralVariables(cats), ApplyVariable, BrokerKeys,
                        (b: Str) => b, (x: Str) => x);
  }

  /** With no broker key in any general section, the default broker list is used. */
  lemma DefaultBrokersWithoutKey(s: ResState, cats: seq<Category>)
    requires forall v :: v in GeneralVariables(cats) ==> !IsKey(v.name, BrokerKeys)
    ensures LoadConfig(s, Loaded(cats)).state.brokers == Some(DefaultBrokers)
  {
    LoadedBrokers(s, cats);
    var vars := GeneralVariables(cats);
    LastValueIsLastOccurrence(vars, BrokerKeys);
    assert forall i :: 0 <= i < |vars| ==> vars[i] in vars;
  }

  /** Writing a broker key as either alias, in any case, in a `general` category spelt in any case, yields the same broker list. */
  lemma BrokerAliasesAgree(s: ResState, a: seq<Category>, b: seq<Category>, value: Str,
                           n: Str, n': Str, key: Str, key': Str)
    requires SameIgnoringCase(n, GeneralCategory) && SameIgnoringCase(n', GeneralCategory)
    requires IsKey(key, BrokerKeys) && IsKey(key', BrokerKeys)
    ensures LoadConfig(s, Loaded(a + [Category(n, [Variable(key, value)])] + b)).state ==
            LoadConfig(s, Loaded(a + [Category(n', [Variable(key', value)])] + b)).state
  {
    AliasesAgreeInGeneral(a, b, value, n, n', key, key', BrokerKeys);
    LoadedBrokers(s, a + [Category(n, [Variable(key, value)])] + b);
    LoadedBrokers(s, a + [Category(n', [Variable(key', value)])] + b);
  }

  /** Two spellings of a general category holding one variable under two aliases give the same last value. */
  lemma AliasesAgreeInGeneral(a: seq<Category>, b: seq<Category>, value: Str,
                              n: Str, n': Str, key: Str, key': Str, keys: seq<Str>)
    requires SameIgnoringCase(n, GeneralCategory) && SameIgnoringCase(n', GeneralCategory)
    requires IsKey(key, keys) && IsKey(key', keys)
    ensures LastValue(GeneralVariables(a + [Category(n, [Variable(key, value)])] + b), keys) ==
            LastValue(GeneralVariables(a + [Category(n', [Variable(key', value)])] + b), keys)
  {
    var c := Category(n, [Variable(key, value)]);
    var c' := Category(n', [Variable(key', value)]);
    assert IsGeneral(c) && IsGeneral(c');
    GeneralVariablesSplice(a, c, b);
    GeneralVariablesSplice(a, c', b);
    var vs := GeneralVariables(a) + [Variable(key, value)] + GeneralVariables(b);
    var vs' := GeneralVariables(a) + [Variable(key', value)] + GeneralVariables(b);
    assert GeneralVariables(a + [c] + b) == vs;
    assert GeneralVariables(a + [c'] + b) == vs';
    LastValueDependsOnlyOnMatches(vs, vs', keys);
  }

  // ---------------------------------------------------------------------------
  // ast_kafka_produce

  datatype ProduceStep = ProduceStep(code: int, trace: seq<Event>)

  /**
   `ast_kafka_produce`: when enabled, one enqueue attempt (whose acceptance
   only chooses a log line) followed by one non-blocking poll; otherwise
   nothing. It returns 0 in every case.
   */
  function KafkaProduce(s: ResState, m: Message, accepted: bool): (r: ProduceStep)
    ensures r.code == 0
    ensures !s.enabled ==> r.trace == []
    ensures s.enabled ==> r.trace == [Enqueue(m, accepted), Poll(0)]
  {
    if s.enabled then ProduceStep(0, [Enqueue(m, accepted), Poll(0)]) else ProduceStep(0, [])
  }

  /** The produce call an adapter makes, if it makes one */
  function ProduceCall(s: ResState, call: Option<Message>, accepted: bool): (r: ProduceStep)
  {
    match call
    case None => ProduceStep(0, [])
    case Some(m) => KafkaProduce(s, m, accepted)
  }

  // ---------------------------------------------------------------------------
  // The poll scheduler

  /** The host's answers to `ast_sched_context_create`, `ast_sched_start_thread` and `ast_sched_add_variable` */
  datatype SchedOracle = SchedOracle(contextCreated: bool, threadStarted: bool, taskAdded: bool)

  datatype SchedStep = SchedStep(code: int, sched: bool, trace: seq<Event>)

  /** A call into the host's scheduler API */
  predicate IsSchedulerCall(e: Event) {
    e.SchedCreate? || e.SchedStartThread? || e.SchedAdd? || e.SchedDestroy?
  }

  /** How one event changes the number of live scheduler contexts */
  function ContextDelta(e: Event): int {
    if e == SchedCreate(true) then 1 else if e == SchedDestroy then -1 else 0
  }

  /** Scheduler contexts created and not destroyed in the trace */
  function LiveContexts(trace: seq<Event>): int
    decreases |trace|
  {
    if |trace| == 0 then 0 else ContextDelta(trace[0]) + LiveContexts(trace[1..])
  }

  lemma {:induction false} LiveContextsAppend(a: seq<Event>, b: seq<Event>)
    ensures LiveContexts(a + b) == LiveContexts(a) + LiveContexts(b)
    decreases |a|
  {
    if |a| == 0 {
      assert a + b == b;
    } else {
      assert (a + b)[0] == a[0];
      assert (a + b)[1..] == a[1..] + b;
      LiveContextsAppend(a[1..], b);
    }
  }

  lemma {:induction false} NoContextsWithoutSchedulerEvents(a: seq<Event>)
    requires forall i :: 0 <= i < |a| ==> ContextDelta(a[i]) == 0
    ensures LiveContexts(a) == 0
    decreases |a|
  {
    if |a| > 0 {
      assert forall i :: 0 <= i < |a[1..]| ==> a[1..][i] == a[i + 1];
      NoContextsWithoutSchedulerEvents(a[1..]);
    }
  }

  /** Every scheduler context created in the trace has been destroyed in it */
  predicate SchedBalanced(trace: seq<Event>) {
    LiveContexts(trace) == 0
  }

  /**
   `start_sched`: a no-op when a scheduler exists; otherwise create a context,
   start its thread and add the poll task, destroying the context and
   clearing `sched` on every failure.
   */
  function StartSched(sched: bool, o: SchedOracle): (r: SchedStep)
    ensures sched ==> r == SchedStep(0, true, [])
    ensures r.code == 0 || r.code == -1
    ensures r.code == 0 <==> r.sched
    ensures !sched ==> (r.code == 0 <==> o.contextCreated && o.threadStarted && o.taskAdded)
    ensures !sched && r.code == 0 ==> SchedAdd(PollIntervalMs, true) in r.trace
    ensures forall i :: 0 <= i < |r.trace| ==> IsSchedulerCall(r.trace[i])
    ensures !sched && !o.contextCreated ==> r.trace == [SchedCreate(false)]
    ensures !sched && o.contextCreated && !o.threadStarted ==>
              r.trace == [SchedCreate(true), SchedStartThread(false), SchedDestroy]
    ensures !sched && o.contextCreated && o.threadStarted && !o.taskAdded ==>
              r.trace == [SchedCreate(true), SchedStartThread(true), SchedAdd(PollIntervalMs, false), SchedDestroy]
    ensures !sched && o.contextCreated && o.threadStarted && o.taskAdded ==>
              r.trace == [SchedCreate(true), SchedStartThread(true), SchedAdd(PollIntervalMs, true)]
  {
    if sched then SchedStep(0, true, [])
    else if !o.contextCreated then SchedStep(-1, false, [SchedCreate(false)])
    else if !o.threadStarted then
      SchedStep(-1, false, [SchedCreate(true), SchedStartThread(false), SchedDestroy])
    else if !o.taskAdded then
      SchedStep(-1, false, [SchedCreate(true), SchedStartThread(true), SchedAdd(PollIntervalMs, false), SchedDestroy])
    else
      SchedStep(0, true, [SchedCreate(true), SchedStartThread(true), SchedAdd(PollIntervalMs, true)])
  }

  /** A start leaves one more live scheduler context exactly when it started the scheduler; every rollback destroys what it created. */
  lemma StartSchedContexts(sched: bool, o: SchedOracle)
    ensures var r := StartSched(sched, o);
            LiveContexts(r.trace) == if r.sched && !sched then 1 else 0
  {
    var t := StartSched(sched, o).trace;
    if |t| > 0 {
      LiveContextsCons(t[0], t[1..]);
      if |t| > 1 {
        LiveContextsCons(t[1], t[2..]);
        if |t| > 2 {
          LiveContextsCons(t[2], t[3..]);
          if |t| > 3 {
            LiveContextsCons(t[3], t[4..]);
          }
        }
      }
    }
  }

  lemma LiveContextsCons(e: Event, t: seq<Event>)
    ensures LiveContexts([e] + t) == ContextDelta(e) + LiveContexts(t)
  {
    assert ([e] + t)[1..] == t;
  }

  /** `stop_sched` (its return value is unspecified: the source falls off the end) */
  datatype SchedStop = SchedStop(sched: bool, trace: seq<Event>)

  function StopSched(sched: bool): (r: SchedStop)
    ensures !r.sched
    ensures LiveContexts(r.trace) == if sched then -1 else 0
    ensures sched ==> r.trace == [SchedDestroy]
    ensures !sched ==> r.trace == []
  {
    if sched then SchedStop(false, [SchedDestroy]) else SchedStop(false, [])
  }

  /** Stopping twice is the same as stopping once: the second stop does nothing. */
  lemma StopSchedTwice(sched: bool)
    ensures StopSched(StopSched(sched).sched).trace == []
    ensures StopSched(StopSched(sched).sched).sched == StopSched(sched).sched
  {
  }

  /** Starting twice is starting once: after a successful start, a second start makes no calls whatever the host would answer. */
  lemma StartSchedIdempotent(sched: bool, o: SchedOracle, o': SchedOracle)
    requires StartSched(sched, o).code == 0
    ensures StartSched(StartSched(sched, o).sched, o') == SchedStep(0, true, [])
  {
  }

  /** A start followed by a stop leaves no scheduler and no context leaked, whatever the host answers. */
  lemma StartThenStopReleasesContext(o: SchedOracle)
    ensures !StopSched(StartSched(false, o).sched).sched
    ensures SchedBalanced(StartSched(false, o).trace + StopSched(StartSched(false, o).sched).trace)
  {
    var start := StartSched(false, o);
    var stop := StopSched(start.sched);
    StartSchedContexts(false, o);
    LiveContextsAppend(start.trace, stop.trace);
  }

  /** One run of the poll task (`do_poll`): a non-blocking poll, then the delay before the next run */
  datatype PollRun = PollRun(nextDelayMs: int, trace: seq<Event>)

  function DoPoll(): (r: PollRun)
    ensures r.trace == [Poll(0)]
    ensures r.nextDelayMs == PollIntervalMs
  {
    PollRun(PollIntervalMs, [Poll(0)])
  }

  /**
   The times at which the poll task runs, for its first `n` runs, when it is
   added at time `added`: the host runs a variable task first after the delay
   it was added with, then after each delay the task returns.
   */
  function PollTimes(added: int, n: nat): (ts: seq<int>)
    ensures |ts| == n
    decreases n
  {
    if n == 0 then []
    else if n == 1 then [added + PollIntervalMs]
    else
      var earlier := PollTimes(added, n - 1);
      earlier + [earlier[n - 2] + DoPoll().nextDelayMs]
  }

  /** The poll task runs every `poll_interval_ms`, forever. */
  lemma {:induction false} PollEveryInterval(added: int, n: nat)
    ensures forall i :: 0 <= i < n ==> PollTimes(added, n)[i] == added + (i + 1) * PollIntervalMs
    decreases n
  {
    if n > 1 {
      PollEveryInterval(added, n - 1);
      var earlier := PollTimes(added, n - 1);
      assert PollTimes(added, n) == earlier + [earlier[n - 2] + PollIntervalMs];
    }
  }

  // ---------------------------------------------------------------------------
  // kafka_connect

  const Callbacks: seq<Callback> := [LogCallback, DeliveryReportCallback, ErrorCallback, StatsCallback]

  function ConnectProperties(brokers: Str): seq<ConfProperty> {
    [ConfProperty("bootstrap.servers", brokers), ConfProperty("statistics.interval.ms", StatsIntervalMs)]
  }

  /** The first property call of a connect trace hands `brokers` to librdkafka as `bootstrap.servers` */
  predicate HandsOverBrokers(trace: seq<Event>, brokers: Str, accepts: ConfProperty -> bool) {
    var p := ConfProperty("bootstrap.servers", brokers);
    |trace| > 1 + |Callbacks| && trace[1 + |Callbacks|] == ConfSet(p, accepts(p))
  }

  /** `kafka_connect` on the loaded broker list */
  function Connect(s: ResState, accepts: ConfProperty -> bool, created: bool): (r: KafkaConnect.Connection)
    requires s.brokers.Some?
    ensures r.code == 0 <==>
              accepts(ConfProperty("bootstrap.servers", s.brokers.value))
              && accepts(ConfProperty("statistics.interval.ms", StatsIntervalMs))
              && created
    ensures r.handle && !s.handle ==>
              accepts(ConfProperty("bootstrap.servers", s.brokers.value))
              && accepts(ConfProperty("statistics.interval.ms", StatsIntervalMs))
    ensures !accepts(ConfProperty("bootstrap.servers", s.brokers.value)) ==>
              r.handle == s.handle && !KafkaConnect.CreatesProducer(r.trace)
              && ConfSet(ConfProperty("statistics.interval.ms", StatsIntervalMs), true) !in r.trace
              && ConfSet(ConfProperty("statistics.interval.ms", StatsIntervalMs), false) !in r.trace
    ensures r.handle == if KafkaConnect.AllAccepted(ConnectProperties(s.brokers.value), accepts) then created else s.handle
    ensures forall i :: 0 <= i < |r.trace| ==> KafkaConnect.IsProducerSetup(r.trace[i])
    ensures HandsOverBrokers(r.trace, s.brokers.value, accepts)
  {
    ConnectFacts(s.brokers.value, s.handle, accepts, created);
    KafkaConnect.ConnectShape(Callbacks, ConnectProperties(s.brokers.value), s.handle, accepts, created);
    KafkaConnect.Connect(Callbacks, ConnectProperties(s.brokers.value), s.handle, accepts, created)
  }

  /** Both properties are accepted exactly when each of the two is */
  lemma AllAcceptedTwo(brokers: Str, accepts: ConfProperty -> bool)
    ensures var props := ConnectProperties(brokers);
            KafkaConnect.AllAccepted(props, accepts) <==> accepts(props[0]) && accepts(props[1])
  {
  }

  /** The manager's connect hands the broker list over first, and stops there when it is rejected. */
  lemma ConnectFacts(brokers: Str, hadHandle: bool, accepts: ConfProperty -> bool, created: bool)
    ensures var props := ConnectProperties(brokers);
            var r := KafkaConnect.Connect(Callbacks, props, hadHandle, accepts, created);
            && HandsOverBrokers(r.trace, brokers, accepts)
            && (KafkaConnect.AllAccepted(props, accepts) <==> accepts(props[0]) && accepts(props[1]))
            && (!accepts(props[0]) ==>
                  && ConfSet(props[1], true) !in r.trace
                  && ConfSet(props[1], false) !in r.trace)
  {
    var props := ConnectProperties(brokers);
    AllAcceptedTwo(brokers, accepts);
    var run := KafkaConnect.ConfSetAll(props, accepts).trace;
    var setup := [ConfNew] + KafkaConnect.CallbackEvents(Callbacks);
    var tail: seq<Event> := if KafkaConnect.AllAccepted(props, accepts) then [ProducerNew(created)] else [];
    assert run[0] == ConfSet(props[0], accepts(props[0]));
    assert (setup + run + tail)[1 + |Callbacks|] == run[0];
    if !accepts(props[0]) {
      assert run == [ConfSet(props[0], false)];
      assert forall e :: e in setup ==> e == ConfNew || e.ConfSetCallback?;
    }
  }

  // ---------------------------------------------------------------------------
  // Module load and unload

  datatype ModuleStep = ModuleStep(status: LoadStatus, state: ResState, trace: seq<Event>)

  /**
   `load_module`: decline when the configuration does not load; otherwise
   connect, start the scheduler and register the CLI commands, ignoring
   what connect and the scheduler report.
   */
  function LoadModule(s: ResState, file: LoadResult, accepts: ConfProperty -> bool, created: bool,
                      o: SchedOracle): (r: ModuleStep)
    requires !file.FileUnchanged?
    ensures r.status == LoadSuccess <==> file.Loaded?
    ensures r.status == LoadDecline ==> r.state == s && r.trace == []
    ensures r.status == LoadSuccess ==>
              && r.state.enabled
              && |r.trace| >= 3
              && r.trace[0] == ConfNew
              && r.trace[|r.trace| - 2] == CliRegister(StatsCommand)
              && r.trace[|r.trace| - 1] == CliRegister(ProduceCommand)
    ensures r.status == LoadSuccess && !s.sched ==>
              (r.state.sched <==> o.contextCreated && o.threadStarted && o.taskAdded)
    ensures r.status == LoadSuccess ==>
              && r.state.brokers.Some?
              && r.state.handle ==
                 if KafkaConnect.AllAccepted(ConnectProperties(r.state.brokers.value), accepts) then created else s.handle
    ensures r.status == LoadSuccess ==>
              forall i :: 0 <= i < |r.trace| - 2 ==>
                KafkaConnect.IsProducerSetup(r.trace[i]) || IsSchedulerCall(r.trace[i])
    ensures r.status == LoadSuccess ==>
              forall i, j :: 0 <= i < j < |r.trace| - 2 && IsSchedulerCall(r.trace[i]) ==> IsSchedulerCall(r.trace[j])
    ensures file.Loaded? ==>
              && r.state.brokers == Some(LastValue(GeneralVariables(file.categories), BrokerKeys).GetOr(DefaultBrokers))
              && r.state.stats == s.stats
              && HandsOverBrokers(r.trace, r.state.brokers.value, accepts)
    ensures r.status == LoadSuccess ==>
              && r.trace == Connect(LoadConfig(s, file).state, accepts, created).trace
                            + StartSched(s.sched, o).trace
                            + [CliRegister(StatsCommand), CliRegister(ProduceCommand)]
              && r.state.sched == StartSched(s.sched, o).sched
              && r.state.handle == Connect(LoadConfig(s, file).state, accepts, created).handle
  {
    var c := LoadConfig(s, file);
    if c.code != 0 then ModuleStep(LoadDecline, s, [])
    else
      LoadedBrokers(s, file.categories);
      var conn := Connect(c.state, accepts, created);
      var st := StartSched(c.state.sched, o);
      var state := c.state.(handle := conn.handle, sched := st.sched);
      var cli := [CliRegister(StatsCommand), CliRegister(ProduceCommand)];
      SetupBeforeScheduler(conn.trace, st.trace, cli);
      assert (conn.trace + st.trace + cli)[1 + |Callbacks|] == conn.trace[1 + |Callbacks|];
      ModuleStep(LoadSuccess, state, conn.trace + st.trace + cli)
  }

  /** Producer setup calls followed by scheduler calls: once a scheduler call is seen, no setup call follows. */
  lemma SetupBeforeScheduler(setup: seq<Event>, sched: seq<Event>, rest: seq<Event>)
    requires forall i :: 0 <= i < |setup| ==> KafkaConnect.IsProducerSetup(setup[i])
    requires forall i :: 0 <= i < |sched| ==> IsSchedulerCall(sched[i])
    ensures var t := setup + sched + rest;
            && (forall i :: 0 <= i < |setup| + |sched| ==> KafkaConnect.IsProducerSetup(t[i]) || IsSchedulerCall(t[i]))
            && (forall i, j :: 0 <= i < j < |setup| + |sched| && IsSchedulerCall(t[i]) ==> IsSchedulerCall(t[j]))
  {
    var t := setup + sched + rest;
    forall i, j | 0 <= i < j < |setup| + |sched| && IsSchedulerCall(t[i])
      ensures IsSchedulerCall(t[j])
    {
      assert t[j] == sched[j - |setup|];
    }
  }

  datatype UnloadStep = UnloadStep(code: int, state: ResState, trace: seq<Event>)

  /**
   `unload_module`: flush for up to ten seconds, report any messages still
   queued (`pending`, the library's `rd_kafka_outq_len`), stop the
   scheduler, free the broker list, destroy the producer and unregister the
   CLI commands. It always returns 0.
   */
  function UnloadModule(s: ResState, pending: nat): (r: UnloadStep)
    ensures r.code == 0
    ensures !r.state.sched && !r.state.handle && r.state.brokers.None?
    ensures r.state.enabled == s.enabled && r.state.stats == s.stats
    ensures |r.trace| == 4 + (if pending > 0 then 1 else 0) + (if s.sched then 1 else 0)
    ensures r.trace[0] == Flush(FlushTimeoutMs)
    ensures NotDelivered(pending) in r.trace <==> pending > 0
    ensures (SchedDestroy in r.trace) <==> s.sched
    ensures r.trace[|r.trace| - 3] == ProducerDestroy
    ensures r.trace[|r.trace| - 2] == CliUnregister(StatsCommand)
    ensures r.trace[|r.trace| - 1] == CliUnregister(ProduceCommand)
    ensures forall i :: 0 <= i < |r.trace| && r.trace[i] == SchedDestroy ==> 0 < i < |r.trace| - 3
    ensures forall i :: 0 <= i < |r.trace| && r.trace[i].NotDelivered? ==> i == 1
  {
    var report := if pending > 0 then [NotDelivered(pending)] else [];
    var stop := StopSched(s.sched);
    var head := [Flush(FlushTimeoutMs)] + report;
    var tail := [ProducerDestroy, CliUnregister(StatsCommand), CliUnregister(ProduceCommand)];
    var trace := head + stop.trace + tail;
    UnloadStep(0, s.(brokers := None, handle := false, sched := stop.sched), trace)
  }

  /** A successful load leaves one live scheduler context exactly when it started the scheduler. */
  lemma LoadModuleContexts(s: ResState, file: LoadResult, accepts: ConfProperty -> bool, created: bool,
                           o: SchedOracle)
    requires !file.FileUnchanged?
    ensures var r := LoadModule(s, file, accepts, created, o);
            LiveContexts(r.trace) == if r.state.sched && !s.sched then 1 else 0
  {
    if file.Loaded? {
      var c := LoadConfig(s, file);
      var conn := Connect(c.state, accepts, created);
      assert LoadModule(s, file, accepts, created, o).trace
             == conn.trace + StartSched(c.state.sched, o).trace + [CliRegister(StatsCommand), CliRegister(ProduceCommand)];
      LoadTraceContexts(conn.trace, StartSched(c.state.sched, o).trace);
      StartSchedContexts(c.state.sched, o);
    }
  }

  /** Connect calls, then any calls, then the CLI registrations: only the calls in the middle change the live contexts. */
  lemma LoadTraceContexts(conn: seq<Event>, middle: seq<Event>)
    requires forall i :: 0 <= i < |conn| ==> KafkaConnect.IsProducerSetup(conn[i])
    ensures LiveContexts(conn + middle + [CliRegister(StatsCommand), CliRegister(ProduceCommand)])
            == LiveContexts(middle)
  {
    forall i | 0 <= i < |conn|
      ensures ContextDelta(conn[i]) == 0
    {
      assert KafkaConnect.IsProducerSetup(conn[i]);
    }
    OnlyMiddleChangesContexts(conn, middle, [CliRegister(StatsCommand), CliRegister(ProduceCommand)]);
  }

  /** Calls around a run that create and destroy no scheduler context leave its live-context count unchanged. */
  lemma OnlyMiddleChangesContexts(a: seq<Event>, b: seq<Event>, c: seq<Event>)
    requires forall i :: 0 <= i < |a| ==> ContextDelta(a[i]) == 0
    requires forall i :: 0 <= i < |c| ==> ContextDelta(c[i]) == 0
    ensures LiveContexts(a + b + c) == LiveContexts(b)
  {
    NoContextsWithoutSchedulerEvents(a);
    NoContextsWithoutSchedulerEvents(c);
    LiveContextsAppend(a, b);
    LiveContextsAppend(a + b, c);
  }

  /** Unloading destroys the scheduler context exactly when one exists, and creates none. */
  lemma UnloadModuleContexts(s: ResState, pending: nat)
    ensures LiveContexts(UnloadModule(s, pending).trace) == if s.sched then -1 else 0
  {
    var report := if pending > 0 then [NotDelivered(pending)] else [];
    var stop := StopSched(s.sched);
    var head := [Flush(FlushTimeoutMs)] + report;
    var tail := [ProducerDestroy, CliUnregister(StatsCommand), CliUnregister(ProduceCommand)];
    assert UnloadModule(s, pending).trace == head + stop.trace + tail;
    OnlyMiddleChangesContexts(head, stop.trace, tail);
  }

  /** A load that succeeds followed by an unload leaves no scheduler, no producer and no leaked scheduler context. */
  lemma LoadThenUnloadReleasesEverything(file: LoadResult, accepts: ConfProperty -> bool, created: bool,
                                        o: SchedOracle, pending: nat)
    requires file.Loaded?
    ensures var load := LoadModule(Init, file, accepts, created, o);
            var unload := UnloadModule(load.state, pending);
            && !unload.state.sched && !unload.state.handle
            && SchedBalanced(load.trace + unload.trace)
  {
    var load := LoadModule(Init, file, accepts, created, o);
    LoadModuleContexts(Init, file, accepts, created, o);
    UnloadModuleContexts(load.state, pending);
    LiveContextsAppend(load.trace, UnloadModule(load.state, pending).trace);
  }

  // ---------------------------------------------------------------------------
  // Statistics and the CLI

  /** `stats_cb`: the latest statistics document replaces the snapshot */
  function StatsReceived(s: ResState, document: Str): (r: ResState)
    ensures r.stats == Some(document)
    ensures r.(stats := s.stats) == s
  {
    s.(stats := Some(document))
  }

  /** The CLI handler's `cmd`: the two set-up requests, or a run with the typed words */
  datatype CliCommand = CliInit | CliGenerate | CliRun(argv: seq<Str>)

  /** NULL, CLI_SHOWUSAGE, CLI_SUCCESS, or no value at all (the handler falls off its end) */
  datatype CliReturn = CliNull | CliShowUsage | CliSuccess | CliNoValue

  datatype CliProduce = CliProduce(ret: CliReturn, call: Option<Message>)

  /** `kafka produce <topic> <message>` has its four words, none of the last two empty */
  predicate ValidProduceArgs(argv: seq<Str>) {
    |argv| == 4 && |argv[2]| > 0 && |argv[3]| > 0
  }

  /** `handle_cli_kafka_produce` */
  function HandleCliProduce(cmd: CliCommand): (r: CliProduce)
    ensures r.call.Some? <==> cmd.CliRun? && ValidProduceArgs(cmd.argv)
    ensures r.call.Some? ==> r.call.value == Message(cmd.argv[2], Text(cmd.argv[3]))
    ensures r.ret == CliShowUsage <==> cmd.CliRun? && !ValidProduceArgs(cmd.argv)
    ensures !cmd.CliRun? ==> r.ret == CliNull
  {
    match cmd
    case CliInit => CliProduce(CliNull, None)
    case CliGenerate => CliProduce(CliNull, None)
    case CliRun(argv) =>
      if |argv| != 4 then CliProduce(CliShowUsage, None)
      else if |argv[2]| == 0 || |argv[3]| == 0 then CliProduce(CliShowUsage, None)
      else CliProduce(CliNoValue, Some(Message(argv[2], Text(argv[3]))))
  }

  datatype CliStats = CliStats(ret: CliReturn, state: ResState, trace: seq<Event>)

  /**
   `handle_cli_kafka_stats`: at most two words; a non-blocking poll, then the
   snapshot is shown. The poll runs the statistics callback for every
   document librdkafka has waiting (`served`, in order), so the snapshot
   shown is the last of those, or the earlier one when none was waiting.
   */
  function HandleCliStats(s: ResState, cmd: CliCommand, served: seq<Str>): (r: CliStats)
    ensures cmd.CliRun? && |cmd.argv| > 2 ==> r == CliStats(CliShowUsage, s, [])
    ensures !cmd.CliRun? ==> r == CliStats(CliNull, s, [])
    ensures cmd.CliRun? && |cmd.argv| <= 2 ==>
              && r.ret == CliSuccess
              && r.trace == [Poll(0), StatsShown(r.state.stats)]
              && r.state.(stats := s.stats) == s
              && r.state.stats == if |served| > 0 then Some(served[|served| - 1]) else s.stats
  {
    match cmd
    case CliInit => CliStats(CliNull, s, [])
    case CliGenerate => CliStats(CliNull, s, [])
    case CliRun(argv) =>
      if |argv| > 2 then CliStats(CliShowUsage, s, [])
      else
        var polled := ApplyStats(s, served);
        CliStats(CliSuccess, polled, [Poll(0), StatsShown(polled.stats)])
  }

  /** The statistics callback run once per document, in order */
  function ApplyStats(s: ResState, documents: seq<Str>): (r: ResState)
    ensures r.(stats := s.stats) == s
    ensures r.stats == if |documents| > 0 then Some(documents[|documents| - 1]) else s.stats
    decreases |documents|
  {
    if |documents| == 0 then s
    else StatsReceived(ApplyStats(s, documents[..|documents| - 1]), documents[|documents| - 1])
  }

  /** Documents delivered in two batches leave the same state as the two batches delivered as one. */
  lemma {:induction false} ApplyStatsAppend(s: ResState, a: seq<Str>, b: seq<Str>)
    ensures ApplyStats(ApplyStats(s, a), b) == ApplyStats(s, a + b)
    decreases |b|
  {
    if |b| > 0 {
      assert (a + b)[..|a + b| - 1] == a + b[..|b| - 1];
      ApplyStatsAppend(s, a, b[..|b| - 1]);
    } else {
      assert a + b == a;
    }
  }

  /**
   Last writer wins: after statistics callbacks for `documents`, `kafka stats`
   polls (serving `served`) and shows the last document of all, and its
   state is the one the whole run of callbacks leaves.
   */
  lemma StatsShowsLastDocument(s: ResState, documents: seq<Str>, served: seq<Str>)
    requires |documents + served| > 0
    ensures var r := HandleCliStats(ApplyStats(s, documents), CliRun(["kafka", "stats"]), served);
            && r.trace == [Poll(0), StatsShown(Some((documents + served)[|documents + served| - 1]))]
            && r.state == ApplyStats(s, documents + served)
  {
    ApplyStatsAppend(s, documents, served);
  }

  /** `kafka produce` with valid words makes exactly one enqueue and one poll when enabled, and none when disabled. */
  lemma CliProduceTrace(s: ResState, argv: seq<Str>, accepted: bool)
    requires ValidProduceArgs(argv)
    ensures s.enabled ==>
              ProduceCall(s, HandleCliProduce(CliRun(argv)).call, accepted).trace
              == [Enqueue(Message(argv[2], Text(argv[3])), accepted), Poll(0)]
    ensures !s.enabled ==> ProduceCall(s, HandleCliProduce(CliRun(argv)).call, accepted).trace == []
  {
  }
}

=== FILE: strings.dfy ===
/** C strings as the modules see them: sequences of characters, with no encoding */
module Strings {
  type Str = seq<char>
}

=== FILE: wrappers.dfy ===
/** Optional values: a C pointer that may be NULL, a setting that may be unset. */
module Wrappers {

  datatype Option<+T> = None | Some(value: T) {

    /** The value held, or `default` when there is none */
    function GetOr(default: T): T {
      match this
      case Some(v) => v
      case None => default
    }
  }
}
